=== FILE: README.md ===
# MPF rendering core, modelled in Dafny

A model of three pieces of the MPF user-interface toolkit's rendering core, with proofs about them.

- **Glyph runs** (`GlyphRuns`, `Utf16`). These model `MPF.Core/Media/GlyphRun.cs`.
  - A glyph run turns a sequence of UTF-16 code units into drawing entries. It does this in one left-to-right pass.
  - Blank units (`char.IsControl` or `char.IsWhiteSpace`) are skipped.
  - A high surrogate is buffered. A low surrogate is combined with the buffered high surrogate into a supplementary code point.
  - A code point the font has no glyph for is dropped.
  - Every remaining glyph is placed at the running horizontal advance.
  - `BuildDrawingEntries` is that single loop. It is proved equal to a reference pipeline with three independent stages:
    1. `DecodeCodePoints`
    2. `LookupGlyphs`
    3. `Layout`, which works by prefix sums of advance widths.
  - The proofs include:
    - a decode/encode round trip
    - the exact failure condition: a low surrogate with no high surrogate before it
    - how many entries a run produces
    - where each entry is placed
- **Swap chain** (`SwapChains`). This models `MPF.Core/Media/SwapChain.cs`.
  - On every application tick, the layout manager runs first. Then a pre-order sweep over the element tree calls measure, arrange and render according to each element's dirty flags.
  - An element that is arranged is also rendered, and every descendant gets all three phases.
  - On every frame, the draw subscribers are notified first. Then the visible part of the visual tree is rendered, parent before children.
  - The native callback reaches the swap chain through a weak reference.
  - Every walk returns the trace of calls it makes. The properties are stated about these traces and proved against independent reference definitions:
    - the pre-order of the tree
    - a full three-phase sweep
    - one render call per node.
- **Geometry lifetime** (`Geometries`). This models `src/MPF.Core/Media/Geometry.cs`.
  - Every geometry reports 512 bytes of memory pressure when it is created.
  - The first `Dispose()` or finalizer run releases the native resource and withdraws the pressure. Later calls do nothing.
  - `FromResource` wraps a native resource without changing it.
  - Any sequence of disposals and collections is proved to:
    - release the resource at most once
    - leave the pressure balanced.

`Wrappers` holds `Option`, which stands for a nullable reference, and `Result`, which stands for an operation that may throw.

Two choices the model makes about the code:

- The layout sweep (`SwapChain.cs:67-82`) reads each element's flags and never clears one. Whatever clears them is outside this model, so the model treats the tree as fixed during a sweep.
- A low surrogate with nothing buffered reaches the `Contract.Assert` at `GlyphRun.cs:51`. Were the assertion not checked, `char.ConvertToUtf32('\0', lo)` would throw. Either way the build stops, so the model returns `Failure(LoneLowSurrogate(i))` rather than putting a precondition on the caller.

## Model

| member | source | states |
|---|---|---|
| GlyphRuns.BuildDrawingEntries | MPF.Core/Media/GlyphRun.cs:32-77 | The single-loop builder yields exactly the entries of the decode, lookup and layout pipeline. It fails, with the same error, exactly when the units hold a low surrogate that has no high surrogate before it. It never yields more entries than there are units. |
| GlyphRuns.NewGlyphRun | MPF.Core/Media/GlyphRun.cs:18-24 | Constructing a run stores the font, units and em size unchanged, with the entries built from them. Construction fails exactly on a lone low surrogate. |
| GlyphRuns.Draw | MPF.Core/Media/GlyphRun.cs:26-30 | Drawing makes one `DrawGeometry` call per entry, in entry order. Each call passes that entry's geometry and transform and the given pen. |
| GlyphRuns.FeedUnit | MPF.Core/Media/GlyphRun.cs:40-72 | One iteration fails exactly on a low surrogate read while nothing is buffered, and the failure names that unit's index. Otherwise the buffer stays NUL or a high surrogate, and the iteration keeps every earlier entry and adds at most one. |
| GlyphRuns.FeedIsPipeline | MPF.Core/Media/GlyphRun.cs:34-75 | The loop fails exactly when decoding fails, with the same error. Otherwise its locals after reading the units equal the pipeline's: the entries and running advance of the glyphs found, and the last high surrogate read. |
| GlyphRuns.FeedUnitSkips | MPF.Core/Media/GlyphRun.cs:40-48 | One iteration over a control or white-space unit, or a high surrogate, adds no entry and leaves the advance unchanged. A high surrogate replaces the buffered one, used or not. |
| GlyphRuns.FeedUnitEmits | MPF.Core/Media/GlyphRun.cs:49-72 | One iteration over a unit that yields a code point adds an entry at the running advance and grows the advance by the glyph's width. If the font has no glyph for the code point, nothing changes. |
| GlyphRuns.FeedFailureIsFinal | MPF.Core/Media/GlyphRun.cs:49-53 | Once the loop has failed, reading more units does not change the outcome. |
| GlyphRuns.BuilderFailure | MPF.Core/Media/GlyphRun.cs:49-53 | When the loop stops at a lone low surrogate at index i, the whole build fails with the error naming i, and the units hold a lone low surrogate. |
| GlyphRuns.BuilderSuccess | MPF.Core/Media/GlyphRun.cs:34-76 | When the loop runs to the end, the entries it holds are the pipeline's, no unit is a lone low surrogate, and there are at most as many entries as units. |
| GlyphRuns.EmitStep | MPF.Core/Media/GlyphRun.cs:57-71 | Looking up one more code point adds its glyph when the font has one. Laying out that glyph places it after the advance of all earlier glyphs and leaves the earlier entries untouched. |
| GlyphRuns.DecodeCodePoints | MPF.Core/Media/GlyphRun.cs:38-55 | Decoding yields at most one code point per unit. A failure names the index of a low surrogate. |
| GlyphRuns.LastHighSurrogate | MPF.Core/Media/GlyphRun.cs:37-47 | The buffered unit is NUL exactly when no high surrogate has been seen so far. Otherwise it is a high surrogate. |
| GlyphRuns.LastHighIsMostRecent | MPF.Core/Media/GlyphRun.cs:44-47 | The buffered high surrogate is the last high surrogate in the prefix. |
| GlyphRuns.DecodeFailsIffLoneLow | MPF.Core/Media/GlyphRun.cs:49-53 | Decoding fails if and only if some low surrogate has no high surrogate anywhere before it. |
| GlyphRuns.DecodeFailureIsFinal | MPF.Core/Media/GlyphRun.cs:49-53 | Once a prefix fails, the whole sequence fails with the same error, whatever follows. |
| GlyphRuns.LoneLowSurrogateFails | MPF.Core/Media/GlyphRun.cs:49-53 | Suppose a low surrogate arrives at index i while no high surrogate is buffered. Then the build fails with the error naming index i. |
| GlyphRuns.DecodeLength | MPF.Core/Media/GlyphRun.cs:40-55 | A successful decode yields exactly one code point per unit that is neither blank nor a high surrogate. |
| GlyphRuns.EmittingCountFull | MPF.Core/Media/GlyphRun.cs:40-48 | Every unit yields a code point if and only if no unit is blank or a high surrogate. |
| GlyphRuns.DecodePlainText | MPF.Core/Media/GlyphRun.cs:54-55 | Text with no blanks and no surrogates decodes to its own units, one for one. |
| GlyphRuns.DecodeEncodeRoundTrip | MPF.Core/Media/GlyphRun.cs:44-55 | Encoding drawable code points to UTF-16 and decoding the result gives back the same code points. |
| GlyphRuns.OverwrittenHighSurrogateIsDropped | MPF.Core/Media/GlyphRun.cs:44-47 | A high surrogate followed by another high surrogate is replaced, not combined. Only the second is paired with the following low surrogate. |
| GlyphRuns.StaleHighSurrogateIsReused | MPF.Core/Media/GlyphRun.cs:49-53 | The buffered high surrogate is not cleared after pairing. A second low surrogate pairs with it again. |
| GlyphRuns.LookupFullIffCovered | MPF.Core/Media/GlyphRun.cs:57-58 | The lookup keeps every code point if and only if the font has a glyph for each one. |
| GlyphRuns.LookupCovered | MPF.Core/Media/GlyphRun.cs:57-58 | When the font covers every code point, the lookup yields the font's glyph for each, in order. |
| GlyphRuns.LookupUncovered | MPF.Core/Media/GlyphRun.cs:57-58 | When the font covers no code point, nothing is drawn. |
| GlyphRuns.LayoutPlacement | MPF.Core/Media/GlyphRun.cs:60-66 | Glyph k is placed at its right-side bearing plus the sum of the advance widths of glyphs 0 to k-1. It is moved down by the font descent and has height ascent plus descent. |
| GlyphRuns.SumAdvanceSplit | MPF.Core/Media/GlyphRun.cs:66 | The running advance over the whole run is the sum of the advances of any prefix and the rest. |
| GlyphRuns.ConsecutiveEntries | MPF.Core/Media/GlyphRun.cs:64-66 | The pen positions of consecutive entries differ by exactly the earlier glyph's advance width. |
| GlyphRuns.EntriesBound | MPF.Core/Media/GlyphRun.cs:38-72 | The number of entries is at most the number of emitting units, which is at most the number of units. The inequality is strict when any unit is blank or a high surrogate, and when any decoded code point has no glyph in the font. |
| GlyphRuns.PlainTextOneEntryPerUnit | MPF.Core/Media/GlyphRun.cs:38-72 | Plain text fully covered by the font gives one entry per unit, carrying that unit's glyph geometry. |
| GlyphRuns.SpacedPairExample | MPF.Core/Media/GlyphRun.cs:38-72 | "A B" yields two entries. The space is skipped, but B is still placed after A's advance width. |
| Utf16.CombinePair | MPF.Core/Media/GlyphRun.cs:52 | Combining a high and a low surrogate gives a supplementary code point: 0x10000 up to 0x10FFFF. |
| Utf16.CombineSplit | MPF.Core/Media/GlyphRun.cs:52 | Splitting a supplementary code point and combining the halves gives the code point back. |
| Utf16.SplitCombine | MPF.Core/Media/GlyphRun.cs:52 | Combining a pair and splitting the result gives the pair back, so distinct pairs never collide. |
| Utf16.BlankIsNotSurrogate | MPF.Core/Media/GlyphRun.cs:40-49 | The blank test never takes a surrogate, so skipping blanks never splits a pair. |
| Utf16.EncodeAll | MPF.Core/Media/GlyphRun.cs:44-55 | Encoding drawable code points takes between one and two units per code point. |
| SwapChains.NewSwapChain | MPF.Core/Media/SwapChain.cs:17-24 | A null native swap chain throws `ArgumentNullException("swapChain")` and registers nothing. Otherwise the callback is registered with that handle, then the tick is subscribed, and the new chain has no root and no draw subscribers. |
| SwapChains.GetArrangeRect | MPF.Core/Media/SwapChain.cs:59-65 | The arrange rect is the last final rect when there is one. Otherwise it is a rect at the origin with the desired size. |
| SwapChains.NodePhases | MPF.Core/Media/SwapChain.cs:67-78 | Measure runs if and only if the element is forced or measure-dirty. Arrange runs if and only if it is forced or arrange-dirty. Render runs if and only if it was arranged or is render-dirty. The calls come in the order measure, arrange, render, and touch only this element. |
| SwapChains.OnUpdate | MPF.Core/Media/SwapChain.cs:50-57 | A tick runs the global layout update once, first, and then only the sweep from the root as it stands after that update. With no root at that point, the tick runs nothing else. |
| SwapChains.ForcedUpdateIsFull | MPF.Core/Media/SwapChain.cs:67-82 | A forced visit runs measure, arrange and render on every node of the subtree, in pre-order. |
| SwapChains.ArrangeForcesSubtree | MPF.Core/Media/SwapChain.cs:72-81 | An arranged element is also rendered, and every descendant gets all three phases, whatever its own flags. |
| SwapChains.CleanTreeIsSilent | MPF.Core/Media/SwapChain.cs:67-82 | An unforced sweep over a tree with no dirty flag makes no call. |
| SwapChains.CleanNodeVisitsChildren | MPF.Core/Media/SwapChain.cs:69-81 | An element with no flags makes no call of its own, but its children are still swept. |
| SwapChains.UpdateElement | MPF.Core/Media/SwapChain.cs:67-82 | Every call of a sweep is one of the full-sweep calls on a node of the swept subtree, with that node's own available size or arrange rect. There are at most three times as many calls as the subtree has nodes. |
| SwapChains.UpdateIsSubsweep | MPF.Core/Media/SwapChain.cs:67-82 | A sweep, forced or not, is the full sweep of the subtree with some calls left out. The nodes come in pre-order, and each node gets at most its own measure, arrange and render, in that order. |
| SwapChains.ChildrenAreSubsweeps | MPF.Core/Media/SwapChain.cs:80-81 | The sweep over a child list is the full sweep of the children's subtrees, one after another, with some calls left out. |
| SwapChains.NodePhasesSubseq | MPF.Core/Media/SwapChain.cs:69-78 | One visit's own calls are that element's measure, arrange and render with some left out, in that order. |
| SwapChains.UpdateChildren | MPF.Core/Media/SwapChain.cs:80-81 | Every call of the sweep over a child list is a full-sweep call on a node of one of those subtrees. There are at most three times as many calls as those subtrees have nodes. |
| SwapChains.UpdateLength | MPF.Core/Media/SwapChain.cs:67-82 | A sweep makes at most three times as many calls as the subtree has nodes, and exactly that many when forced. |
| SwapChains.UpdateArrangeThenRender | MPF.Core/Media/SwapChain.cs:72-78 | Every arrange call in a sweep is immediately followed by the render call on the same element. |
| SwapChains.ArrangePropagatesDownChain | MPF.Core/Media/SwapChain.cs:72-81 | A root whose only flag is arrange-dirty re-arranges its clean child and grandchild. |
| SwapChains.CleanSurfaceTick | MPF.Core/Media/SwapChain.cs:50-57 | A tick whose tree has no dirty flags once the layout manager has run makes no call besides the global layout update. |
| SwapChains.EmptySurfaceTick | MPF.Core/Media/SwapChain.cs:26-57 | When the root is null after the external calls, a tick only updates layout and a frame only notifies the draw subscribers. |
| SwapChains.RenderVisual | MPF.Core/Media/SwapChain.cs:39-48 | The walk renders exactly the visible pre-order of the subtree, once each and in that order. An invisible node and everything below it are left out. |
| SwapChains.RenderVisuals | MPF.Core/Media/SwapChain.cs:45-46 | The walk over a child list renders the visible pre-orders of the children, one after another. |
| SwapChains.VisibleNodesAreInTree | MPF.Core/Media/SwapChain.cs:39-48 | Every node the walk reaches is visible and belongs to the subtree. |
| SwapChains.RenderRoot | MPF.Core/Media/SwapChain.cs:32-37 | With no root, nothing is rendered. Otherwise the walk renders the visible pre-order of the root, which has no more calls than the tree has nodes, and makes only render calls. |
| SwapChains.OnDraw | MPF.Core/Media/SwapChain.cs:26-37 | Every draw subscriber is notified before any content is rendered. Rendering follows, from the root as it stands after the last subscriber returns. |
| SwapChains.NewCallback | MPF.Core/Media/SwapChain.cs:88-91 | A fresh callback resolves to the swap chain it was made for. |
| SwapChains.GetTarget | MPF.Core/Media/SwapChain.cs:98-104 | Resolving the weak reference yields null exactly when the swap chain has been collected, and otherwise that swap chain. |
| SwapChains.CallbackOnDraw | MPF.Core/Media/SwapChain.cs:93-104 | A callback whose swap chain has been collected does nothing. Otherwise it draws that swap chain's frame. |
| SwapChains.VisibleTreeRendersPreOrder | MPF.Core/Media/SwapChain.cs:39-48 | In a fully visible tree every node is rendered exactly once, parents before children and siblings in order. |
| SwapChains.RenderAllIffAllVisible | MPF.Core/Media/SwapChain.cs:39-48 | Every node is rendered if and only if no node of the tree is invisible. |
| SwapChains.HiddenChildIsPruned | MPF.Core/Media/SwapChain.cs:41-46 | An invisible child contributes nothing: the walk is the same as with that child removed. |
| SwapChains.RenderIgnoresLayoutState | MPF.Core/Media/SwapChain.cs:39-48 | Two trees that agree on identity, visibility and shape render the same, whatever their flags or layout state. |
| SwapChains.HiddenSubtreeIsCulled | MPF.Core/Media/SwapChain.cs:39-48 | Take a root with an invisible child X, and a node Y below X. Only the root is rendered: Y is never reached. |
| Geometries.FromResource | src/MPF.Core/Media/Geometry.cs:51-66 | The wrapper exposes exactly the resource it was given. It is fresh, undisposed and charged 512 bytes of pressure. |
| Geometries.DisposeCore | src/MPF.Core/Media/Geometry.cs:27-37 | The call leaves the geometry disposed and its resource unchanged. On an already disposed geometry it changes nothing. Otherwise it withdraws 512 bytes and releases one resource when there is one. |
| Geometries.Finalize | src/MPF.Core/Media/Geometry.cs:39-42 | The finalizer's `Dispose(false)` has exactly the effect of `Dispose(true)`: the `disposing` flag changes nothing. |
| Geometries.Dispose | src/MPF.Core/Media/Geometry.cs:44-48 | The geometry ends up disposed with finalization suppressed, even when it was already disposed. |
| Geometries.Reclaim | src/MPF.Core/Media/Geometry.cs:39-47 | The collector skips the finalizer once it has been suppressed, and runs it otherwise. |
| Geometries.StepPreserves | src/MPF.Core/Media/Geometry.cs:27-48 | Every call keeps the lifecycle invariant. The pressure is 512 bytes before disposal and 0 after. The resource has been released once after disposal and never before. |
| Geometries.DisposeIdempotent | src/MPF.Core/Media/Geometry.cs:29-35 | Disposing twice is the same as disposing once, on both paths. |
| Geometries.FinalizerAfterDisposeIsNoOp | src/MPF.Core/Media/Geometry.cs:39-48 | After `Dispose()` the finalizer is not run, and would change nothing if it were. |
| Geometries.DisposePathsAgree | src/MPF.Core/Media/Geometry.cs:27-48 | Reclaiming an undisposed geometry and disposing it explicitly leave the same resource and pressure state. |
| Geometries.RunPreserves | src/MPF.Core/Media/Geometry.cs:27-48 | Any sequence of calls keeps the invariant and the resource. At least one call leaves the geometry disposed. |
| Geometries.ReleasedAtMostOnce | src/MPF.Core/Media/Geometry.cs:17-48 | From creation, any mix of disposals and collections releases the resource at most once. After any call, the 512 bytes of pressure are fully withdrawn. |
| Geometries.FirstCallDecides | src/MPF.Core/Media/Geometry.cs:29-36 | Only the first call changes the released resources and the pressure. |
| Geometries.NullResourceStillBalancesPressure | src/MPF.Core/Media/Geometry.cs:31-34 | A geometry without a resource releases nothing but still withdraws its pressure. |
| Geometries.SharedResourceIsReleasedByEach | src/MPF.Core/Media/Geometry.cs:51-66 | Two geometries built over the same native resource each release it after any non-empty mix of disposals and collections. The combined release log holds the resource twice. |

## Left out

- Floating point. These are modelled as integers in font design units:
  - the `float` advance
  - the font and glyph metrics
  - the `(int)` truncation of ascent and descent

  The `Matrix3x2` product is kept symbolic as its three parameters: horizontal offset, descent and height. The 0.1 scale is fixed and is not modelled.
- `FontFamily`, the glyph outline `Geometry` objects and `IDrawingContext` are not part of this model. A font is a map from code points to glyphs, a geometry is a handle, and `Draw` returns the sequence of `DrawGeometry` calls it makes.
- `renderingEmSize` is stored but is not used by the builder, and it is not used in the model either.
- `UIElement.Measure`, `Arrange`, `Render`, `Visual.RenderContent` and `LayoutManager.Update` are not part of this model. They appear only as calls in a trace. The tree is taken as fixed for the whole walk, so these assumptions follow:
  - the arrange rect uses the desired size as it was before the same visit's `Measure`
  - `VisualChildren` is read as it was before the phases run
  - every visual child of an element is a `UIElement` (the source's cast would throw otherwise).
- SwapChains.OnUpdate: `RootVisual` and the flags are read after `LayoutManager.Current.Update()` returns. The model takes the root at that point as a parameter and does not say how the layout manager changes the tree.
- SwapChains.OnDraw: `RootVisual` has a public setter and is read after the `Draw` subscribers return. The model takes the root at that point as a parameter and does not say what the subscribers do.
- GlyphRuns.Draw: `DrawGeometry` receives the entry's transform by `ref`. The model assumes the drawing context does not write through that reference, so every `Draw` passes the transforms the builder computed.
- GlyphRuns.NewGlyphRun: a null `fontFamily` or `characters` argument is not modelled. The source throws at `GlyphRun.cs:34` or `:57`, and the model's font and units are always present.
- SwapChains.UpdateElement, SwapChains.OnUpdate, SwapChains.OnDraw, GlyphRuns.Draw and Geometries.DisposeCore: every call into code outside the model is taken to return normally. These calls are `Measure`, `Arrange`, `Render`, `Visual.RenderContent`, `LayoutManager.Current.Update`, a `Draw` subscriber, `DrawGeometry`, `FindGlyph` and `Marshal.ReleaseComObject`. In the source, a throw from any of them ends the walk, so the real trace is a prefix of the modelled one. A throw from `ReleaseComObject` leaves `disposedValue` false with the 512 bytes still charged, so the next call tries again. The model does not cover that retry.
- The unused `parent` argument of `OnUpdate(element, parent, forceArrange)` is dropped.
- `Application.Current.Update` and `ISwapChain.SetCallback` are recorded as host calls, not carried out. The draw event is a subscriber count.
- The `WeakReference` is a swap chain plus a flag saying whether the collector has cleared it. When the collector clears it is not modelled.
- When the collector runs a finalizer is not modelled. `Run` takes the order of disposals and collections as its input. `GC.AddMemoryPressure` and `RemoveMemoryPressure` become the geometry's net pressure, and `Marshal.ReleaseComObject` becomes an entry in its `released` sequence.
- `Geometry.Empty`, the `StreamGeometry` subclass and the `Animatable` base class are not part of this model.
- `MPF.Platform/Media/D3D9SwapChain.h`, `D3D9ResourceManager.h` and `IDependencyValueProvider.cs` are not modelled. They only declare the native side and an interface.

=== FILE: geometry.dfy ===
/** The dispose-once lifecycle of `Geometry` (`src/MPF.Core/Media/Geometry.cs`):
    every geometry reports a fixed amount of unmanaged memory to the
    collector when it is created and withdraws it when it is disposed,
    releasing its native resource at the same time. Disposal can be asked
    for explicitly or by the finalizer, and happens once. */
module Geometries {
  import opened Wrappers

  /** A native resource object. */
  type ResourceHandle = nat

  /** The unmanaged memory, in bytes, each geometry reports to the
      collector. */
  const MemoryPressureBytes: nat := 512

  /** A geometry together with its effect on the outside world: the native
      resources it has released so far, in order, and the memory pressure
      it currently adds to the collector's total. */
  datatype Geometry = Geometry(
    resource: Option<ResourceHandle>,   // `None` where the source holds `null`
    disposedValue: bool,
    finalizeSuppressed: bool,
    released: seq<ResourceHandle>,
    memoryPressure: int)

  /** What the collector and the owner can do to a geometry. */
  datatype Call =
    | ExplicitDispose   // Dispose()
    | Collect           // the collector reclaims the object

  /** The state a geometry is in, determined by whether it has been
      disposed: before, it adds its pressure and has released nothing;
      after, it adds none and has released its resource, if it has one,
      exactly once. Finalization is only ever suppressed by disposing. */
  predicate Consistent(g: Geometry) {
    && (g.finalizeSuppressed ==> g.disposedValue)
    && g.memoryPressure == (if g.disposedValue then 0 else MemoryPressureBytes)
    && g.released == (if g.disposedValue && g.resource.Some? then [g.resource.value] else [])
  }

  /** The geometry's native resource (`IResourceProvider.Resource`). */
  function Resource(g: Geometry): Option<ResourceHandle> {
    g.resource
  }

  /** `FromResource`: wraps an existing native resource, unchanged, in a
      fresh geometry, which the base constructor charges with its memory
      pressure. */
  function FromResource(resource: Option<ResourceHandle>): (g: Geometry)
    ensures Resource(g) == resource
    ensures Consistent(g) && !g.disposedValue && !g.finalizeSuppressed
    ensures g.memoryPressure == MemoryPressureBytes && g.released == []
  {
    Geometry(resource, false, false, [], MemoryPressureBytes)
  }

  /** `Dispose(bool)`: the first call releases the resource, if any,
      withdraws the memory pressure and marks the geometry disposed; every
      later call changes nothing. Both paths behave the same whatever
      `disposing` says. */
  function DisposeCore(g: Geometry, disposing: bool): (h: Geometry)
    ensures h.disposedValue
    ensures Resource(h) == Resource(g) && h.finalizeSuppressed == g.finalizeSuppressed
    ensures g.disposedValue ==> h == g
    ensures Consistent(g) ==> Consistent(h)
    ensures !g.disposedValue ==> h.memoryPressure == g.memoryPressure - MemoryPressureBytes
    ensures !g.disposedValue ==> |h.released| == |g.released| + (if g.resource.Some? then 1 else 0)
  {
    if !g.disposedValue then
      var released := if g.resource.Some? then g.released + [g.resource.value] else g.released;
      g.(released := released, memoryPressure := g.memoryPressure - MemoryPressureBytes, disposedValue := true)
    else
      g
  }

  /** The finalizer `~Geometry()`. */
  function Finalize(g: Geometry): (h: Geometry)
    ensures h == DisposeCore(g, true)
  {
    DisposeCore(g, false)
  }

  /** `Dispose()`: disposes, then tells the collector not to run the
      finalizer, even when the geometry was already disposed. */
  function Dispose(g: Geometry): (h: Geometry)
    ensures h.disposedValue && h.finalizeSuppressed
    ensures Resource(h) == Resource(g)
    ensures Consistent(g) ==> Consistent(h)
    ensures g.disposedValue ==> h == g.(finalizeSuppressed := true)
  {
    DisposeCore(g, true).(finalizeSuppressed := true)
  }

  /** The collector reclaiming the object: the finalizer runs unless it was
      suppressed. */
  function Reclaim(g: Geometry): (h: Geometry)
    ensures g.finalizeSuppressed ==> h == g
    ensures !g.finalizeSuppressed ==> h == Finalize(g)
  {
    if g.finalizeSuppressed then g else Finalize(g)
  }

  function Step(g: Geometry, c: Call): Geometry {
    match c
    case ExplicitDispose => Dispose(g)
    case Collect => Reclaim(g)
  }

  /** The geometry after a sequence of calls, in order. */
  function Run(g: Geometry, calls: seq<Call>): Geometry
    decreases |calls|
  {
    if |calls| == 0 then g else Run(Step(g, calls[0]), calls[1..])
  }

  // ---------------------------------------------------------------------
  // Lemmas
  // ---------------------------------------------------------------------

  /** Every call keeps a geometry consistent and never changes its
      resource. */
  lemma StepPreserves(g: Geometry, c: Call)
    requires Consistent(g)
    ensures Consistent(Step(g, c)) && Resource(Step(g, c)) == Resource(g)
  {
  }

  /** Disposing twice is disposing once. */
  lemma DisposeIdempotent(g: Geometry)
    ensures Dispose(Dispose(g)) == Dispose(g)
    ensures Finalize(Finalize(g)) == Finalize(g)
  {
  }

  /** After `Dispose()`, the collector never runs the finalizer; and had it
      run, the finalizer would change nothing anyway. */
  lemma FinalizerAfterDisposeIsNoOp(g: Geometry)
    ensures Reclaim(Dispose(g)) == Dispose(g)
    ensures Finalize(Dispose(g)) == Dispose(g)
  {
  }

  /** The explicit and the finalizer path reach the same resource state:
      they differ only in whether finalization is suppressed. */
  lemma DisposePathsAgree(g: Geometry)
    requires !g.finalizeSuppressed
    ensures Reclaim(g) == Dispose(g).(finalizeSuppressed := false)
  {
  }

  /** Any sequence of calls leaves a consistent geometry consistent, with
      the same resource, and disposed as soon as there is at least one
      call. */
  lemma {:induction false} RunPreserves(g: Geometry, calls: seq<Call>)
    requires Consistent(g)
    ensures Consistent(Run(g, calls)) && Resource(Run(g, calls)) == Resource(g)
    ensures |calls| > 0 ==> Run(g, calls).disposedValue
    ensures g.disposedValue ==> Run(g, calls).disposedValue
    decreases |calls|
  {
    if |calls| > 0 {
      StepPreserves(g, calls[0]);
      RunPreserves(Step(g, calls[0]), calls[1..]);
    }
  }

  /** From creation, whatever mix of `Dispose()` and collection follows,
      the native resource is released at most once, and once disposed the
      geometry's memory pressure is fully withdrawn. */
  lemma ReleasedAtMostOnce(resource: Option<ResourceHandle>, calls: seq<Call>)
    ensures |Run(FromResource(resource), calls).released| <= 1
    ensures |calls| > 0 ==> Run(FromResource(resource), calls).memoryPressure == 0
    ensures |calls| > 0 && resource.Some? ==> Run(FromResource(resource), calls).released == [resource.value]
    ensures |calls| == 0 ==> Run(FromResource(resource), calls).memoryPressure == MemoryPressureBytes
  {
    RunPreserves(FromResource(resource), calls);
  }

  /** Only the first call does any work: the rest can only suppress
      finalization. */
  lemma {:induction false} FirstCallDecides(g: Geometry, calls: seq<Call>)
    requires Consistent(g) && |calls| > 0
    ensures Run(g, calls).released == Step(g, calls[0]).released
    ensures Run(g, calls).memoryPressure == Step(g, calls[0]).memoryPressure
    decreases |calls|
  {
    if |calls| > 1 {
      var h := Step(g, calls[0]);
      StepPreserves(g, calls[0]);
      FirstCallDecides(h, calls[1..]);
      assert calls[1..][0] == calls[1];
      assert Step(h, calls[1]).released == h.released;
    }
  }

  /** A geometry built without a resource releases nothing but still
      withdraws its memory pressure. */
  lemma NullResourceStillBalancesPressure(calls: seq<Call>)
    requires |calls| > 0
    ensures Run(FromResource(None), calls).released == []
    ensures Run(FromResource(None), calls).memoryPressure == 0
  {
    RunPreserves(FromResource(None), calls);
  }

  /** Two geometries built by `FromResource` over the same native resource
      each release it once they have been disposed or collected, whatever
      calls each receives: the wrapper does not take shared ownership into
      account, so the combined release log names the resource twice. */
  lemma SharedResourceIsReleasedByEach(r: ResourceHandle, calls1: seq<Call>, calls2: seq<Call>)
    requires |calls1| > 0 && |calls2| > 0
    ensures Run(FromResource(Some(r)), calls1).released + Run(FromResource(Some(r)), calls2).released == [r, r]
  {
    ReleasedAtMostOnce(Some(r), calls1);
    ReleasedAtMostOnce(Some(r), calls2);
  }
}

=== FILE: glyph_run.dfy ===
/** The glyph-run builder of `MPF.Core/Media/GlyphRun.cs`: one left-to-right
    pass over UTF-16 code units that skips blanks, pairs surrogates, drops
    code points the font has no glyph for and places every remaining glyph
    at the running horizontal advance.

    The builder is written twice. `BuildDrawingEntries` is the single loop
    of the source; `ExpectedEntries` is a reference pipeline of three
    independent stages (decode the units to code points, look the code
    points up in the font, lay the glyphs out by prefix sums), and the loop
    is proved to compute exactly what the pipeline describes. */
module GlyphRuns {
  import opened Wrappers
  import opened Utf16

  /** Identity of a `Geometry` object; the builder shares glyph geometries
      with the font rather than copying them. */
  type GeometryHandle = nat

  datatype FontMetrics = FontMetrics(ascent: int, descent: int)

  datatype GlyphMetrics = GlyphMetrics(advanceWidth: int, rightSideBearing: int)

  datatype Glyph = Glyph(geometry: GeometryHandle, fontMetrics: FontMetrics, glyphMetrics: GlyphMetrics)

  /** A font family, reduced to its glyph table. */
  datatype FontFamily = FontFamily(glyphs: map<CodePoint, Glyph>) {

    /** `FontFamily.FindGlyph`: the glyph for a code point, or null. */
    function FindGlyph(code: CodePoint): (g: Option<Glyph>)
      ensures g.Some? <==> code in glyphs
      ensures g.Some? ==> g.value == glyphs[code]
    {
      if code in glyphs then Some(glyphs[code]) else None
    }
  }

  /** The parameters of the glyph transform
        Translate(translateX, translateY) * Scale(0.1, -0.1) * Translate(0, height * 0.1)
      in font design units, before scaling. */
  datatype GlyphTransform = GlyphTransform(translateX: int, translateY: int, height: int)

  datatype GlyphDrawingEntry = GlyphDrawingEntry(geometry: GeometryHandle, transform: GlyphTransform)

  /** The assertion the builder makes: a low surrogate needs a high
      surrogate buffered before it. `index` is the offending unit. */
  datatype BuildError = LoneLowSurrogate(index: nat)

  type Pen = nat

  /** One `IDrawingContext.DrawGeometry` call. */
  datatype DrawCall = DrawGeometry(geometry: GeometryHandle, pen: Pen, transform: GlyphTransform)

  datatype GlyphRun = GlyphRun(
    fontFamily: FontFamily,
    characters: seq<CodeUnit>,
    renderingEmSize: real,
    drawingEntries: seq<GlyphDrawingEntry>)

  // ---------------------------------------------------------------------
  // Stage 1: UTF-16 decoding, with the builder's own buffering rules
  // ---------------------------------------------------------------------

  predicate NoHighSurrogate(cs: seq<CodeUnit>) {
    forall i :: 0 <= i < |cs| ==> !IsHighSurrogate(cs[i])
  }

  /** The builder's high-surrogate buffer after reading `cs`: the most
      recent high surrogate, or NUL when there has been none. The buffer is
      never cleared, so a pair's high half stays behind after decoding. */
  function LastHighSurrogate(cs: seq<CodeUnit>): (hi: CodeUnit)
    ensures hi == Nul <==> NoHighSurrogate(cs)
    ensures hi != Nul ==> IsHighSurrogate(hi)
  {
    if |cs| == 0 then Nul
    else if IsHighSurrogate(cs[|cs| - 1]) then cs[|cs| - 1]
    else LastHighSurrogate(cs[..|cs| - 1])
  }

  /** The buffered unit is the last high surrogate read: it occurs in `cs`
      and no high surrogate comes after it. */
  lemma {:induction false} LastHighIsMostRecent(cs: seq<CodeUnit>)
    requires LastHighSurrogate(cs) != Nul
    ensures exists i :: 0 <= i < |cs| && cs[i] == LastHighSurrogate(cs) && NoHighSurrogate(cs[i + 1..])
    decreases |cs|
  {
    var n := |cs| - 1;
    if IsHighSurrogate(cs[n]) {
      assert cs[n + 1..] == [];
    } else {
      var init := cs[..n];
      LastHighIsMostRecent(init);
      var i :| 0 <= i < n && init[i] == LastHighSurrogate(init) && NoHighSurrogate(init[i + 1..]);
      assert cs[i] == init[i];
      NoHighSurrogateExtends(cs, i);
    }
  }

  /** A suffix free of high surrogates stays free when it is extended by
      a unit that is not one. */
  lemma NoHighSurrogateExtends(cs: seq<CodeUnit>, i: nat)
    requires i < |cs| - 1 && !IsHighSurrogate(cs[|cs| - 1])
    requires NoHighSurrogate(cs[..|cs| - 1][i + 1..])
    ensures NoHighSurrogate(cs[i + 1..])
  {
    assert cs[i + 1..] == cs[..|cs| - 1][i + 1..] + [cs[|cs| - 1]];
  }

  /** Some low surrogate has no high surrogate anywhere before it. */
  predicate HasLoneLowSurrogate(cs: seq<CodeUnit>) {
    exists i :: 0 <= i < |cs| && IsLowSurrogate(cs[i]) && NoHighSurrogate(cs[..i])
  }

  /** A unit that yields a code point: neither blank nor a high surrogate. */
  predicate Emits(c: CodeUnit) {
    !IsBlank(c) && !IsHighSurrogate(c)
  }

  /** The number of units in `cs` that yield a code point. */
  function EmittingCount(cs: seq<CodeUnit>): (n: nat)
    ensures n <= |cs|
  {
    if |cs| == 0 then 0
    else EmittingCount(cs[..|cs| - 1]) + (if Emits(cs[|cs| - 1]) then 1 else 0)
  }

  /** The code points the builder looks up, in order. */
  function DecodeCodePoints(cs: seq<CodeUnit>): (r: Result<seq<CodePoint>, BuildError>)
    ensures r.Success? ==> |r.value| <= |cs|
    ensures r.Failure? ==> r.error.index < |cs| && IsLowSurrogate(cs[r.error.index])
    decreases |cs|
  {
    if |cs| == 0 then Success([])
    else
      var last := cs[|cs| - 1];
      var prefix :- DecodeCodePoints(cs[..|cs| - 1]);
      if IsBlank(last) || IsHighSurrogate(last) then Success(prefix)
      else if IsLowSurrogate(last) then
        var hi := LastHighSurrogate(cs[..|cs| - 1]);
        if hi == Nul then Failure(LoneLowSurrogate(|cs| - 1))
        else Success(prefix + [CombinePair(hi, last)])
      else Success(prefix + [last as CodePoint])
  }

  // ---------------------------------------------------------------------
  // Stage 2: glyph lookup
  // ---------------------------------------------------------------------

  /** The glyphs found for `cps`, in order; code points without a glyph are
      dropped, not replaced by a placeholder. */
  function LookupGlyphs(font: FontFamily, cps: seq<CodePoint>): (gs: seq<Glyph>)
    ensures |gs| <= |cps|
  {
    if |cps| == 0 then []
    else
      var prefix := LookupGlyphs(font, cps[..|cps| - 1]);
      match font.FindGlyph(cps[|cps| - 1])
      case Some(g) => prefix + [g]
      case None => prefix
  }

  // ---------------------------------------------------------------------
  // Stage 3: layout
  // ---------------------------------------------------------------------

  /** The total advance width of `gs`, in design units. */
  function SumAdvance(gs: seq<Glyph>): int {
    if |gs| == 0 then 0
    else SumAdvance(gs[..|gs| - 1]) + gs[|gs| - 1].glyphMetrics.advanceWidth
  }

  /** The entry for glyph `g` drawn at horizontal offset `advance`. */
  function PlaceGlyph(g: Glyph, advance: int): GlyphDrawingEntry {
    GlyphDrawingEntry(
      g.geometry,
      GlyphTransform(
        g.glyphMetrics.rightSideBearing + advance,
        g.fontMetrics.descent,
        g.fontMetrics.ascent + g.fontMetrics.descent))
  }

  /** The entries for `gs`, each glyph placed at the running advance. */
  function Layout(gs: seq<Glyph>): (es: seq<GlyphDrawingEntry>)
    ensures |es| == |gs|
  {
    if |gs| == 0 then []
    else Layout(gs[..|gs| - 1]) + [PlaceGlyph(gs[|gs| - 1], SumAdvance(gs[..|gs| - 1]))]
  }

  /** The reference: the entries the builder should produce for `cs`. */
  function ExpectedEntries(font: FontFamily, cs: seq<CodeUnit>): Result<seq<GlyphDrawingEntry>, BuildError> {
    var cps :- DecodeCodePoints(cs);
    Success(Layout(LookupGlyphs(font, cps)))
  }

  // ---------------------------------------------------------------------
  // The builder
  // ---------------------------------------------------------------------

  /** The builder's locals between two iterations of its loop. */
  datatype BuildState = BuildState(entries: seq<GlyphDrawingEntry>, advance: int, highSurrogate: CodeUnit)

  const InitialState := BuildState([], 0, Nul)

  /** The buffer holds NUL or a high surrogate, never anything else. */
  predicate BufferOk(st: BuildState) {
    st.highSurrogate == Nul || IsHighSurrogate(st.highSurrogate)
  }

  /** One iteration of the builder's loop, on unit `c` at position
      `index`. */
  function FeedUnit(font: FontFamily, st: BuildState, c: CodeUnit, index: nat): (r: Result<BuildState, BuildError>)
    requires BufferOk(st)
    ensures r.Failure? <==> IsLowSurrogate(c) && st.highSurrogate == Nul
    ensures r.Failure? ==> r.error == LoneLowSurrogate(index)
    ensures r.Success? ==> BufferOk(r.value)
    ensures r.Success? ==> |st.entries| <= |r.value.entries| <= |st.entries| + 1
    ensures r.Success? ==> st.entries <= r.value.entries
  {
    BlankIsNotSurrogate(c);
    if IsBlank(c) then Success(st)
    else if IsHighSurrogate(c) then Success(st.(highSurrogate := c))
    else if IsLowSurrogate(c) && st.highSurrogate == Nul then Failure(LoneLowSurrogate(index))
    else
      var code := if IsLowSurrogate(c) then CombinePair(st.highSurrogate, c) else c as CodePoint;
      match font.FindGlyph(code)
      case None => Success(st)
      case Some(g) =>
        Success(st.(entries := st.entries + [PlaceGlyph(g, st.advance)],
                    advance := st.advance + g.glyphMetrics.advanceWidth))
  }

  /** The builder's locals after the loop has read `cs`, or the failure
      that stopped it. */
  function FeedAll(font: FontFamily, cs: seq<CodeUnit>): (r: Result<BuildState, BuildError>)
    ensures r.Success? ==> BufferOk(r.value)
    decreases |cs|
  {
    if |cs| == 0 then Success(InitialState)
    else
      var st :- FeedAll(font, cs[..|cs| - 1]);
      FeedUnit(font, st, cs[|cs| - 1], |cs| - 1)
  }

  /** `GlyphRun.BuildDrawingEntries`: the single pass of the source. */
  method BuildDrawingEntries(font: FontFamily, cs: seq<CodeUnit>)
    returns (r: Result<seq<GlyphDrawingEntry>, BuildError>)
    ensures r.Success? <==> ExpectedEntries(font, cs).Success?
    ensures r.Success? ==> r.value == ExpectedEntries(font, cs).value
    ensures r.Failure? ==> r.error == ExpectedEntries(font, cs).error
    ensures r.Failure? <==> HasLoneLowSurrogate(cs)
    ensures r.Success? ==> |r.value| <= |cs|
  {
    var entries: seq<GlyphDrawingEntry> := [];
    var advance := 0;
    var highSurrogate := Nul;
    for i := 0 to |cs|
      invariant FeedAll(font, cs[..i]).Success?
      invariant FeedAll(font, cs[..i]).value == BuildState(entries, advance, highSurrogate)
    {
      FeedStep(font, cs, i);
      var c := cs[i];
      var isBlank := IsBlank(c);
      if !isBlank {
        var code: CodePoint;
        if IsHighSurrogate(c) {
          highSurrogate := c;
          continue;
        } else if IsLowSurrogate(c) {
          if highSurrogate == Nul {
            BuilderFailure(font, cs, i);
            return Failure(LoneLowSurrogate(i));
          }
          code := CombinePair(highSurrogate, c);
        } else {
          code := c as CodePoint;
        }
        var glyph := font.FindGlyph(code);
        if glyph.Some? {
          var g := glyph.value;
          var transform := GlyphTransform(
            g.glyphMetrics.rightSideBearing + advance,
            g.fontMetrics.descent,
            g.fontMetrics.ascent + g.fontMetrics.descent);
          entries := entries + [GlyphDrawingEntry(g.geometry, transform)];
          advance := advance + g.glyphMetrics.advanceWidth;
          continue;
        }
      }
    }
    BuilderSuccess(font, cs);
    r := Success(entries);
  }

  /** The `GlyphRun` constructor: the entries are built once, up front. */
  method NewGlyphRun(font: FontFamily, cs: seq<CodeUnit>, renderingEmSize: real)
    returns (r: Result<GlyphRun, BuildError>)
    ensures r.Failure? <==> HasLoneLowSurrogate(cs)
    ensures r.Success? ==>
      && r.value.fontFamily == font
      && r.value.characters == cs
      && r.value.renderingEmSize == renderingEmSize
      && ExpectedEntries(font, cs).Success?
      && r.value.drawingEntries == ExpectedEntries(font, cs).value
  {
    var entries := BuildDrawingEntries(font, cs);
    if entries.Failure? {
      return Failure(entries.error);
    }
    r := Success(GlyphRun(font, cs, renderingEmSize, entries.value));
  }

  /** `GlyphRun.Draw`: one `DrawGeometry` per entry, in entry order. */
  method Draw(run: GlyphRun, pen: Pen) returns (calls: seq<DrawCall>)
    ensures |calls| == |run.drawingEntries|
    ensures forall k :: 0 <= k < |calls| ==>
      calls[k] == DrawGeometry(run.drawingEntries[k].geometry, pen, run.drawingEntries[k].transform)
  {
    calls := [];
    for i := 0 to |run.drawingEntries|
      invariant |calls| == i
      invariant forall k :: 0 <= k < i ==>
        calls[k] == DrawGeometry(run.drawingEntries[k].geometry, pen, run.drawingEntries[k].transform)
    {
      var entry := run.drawingEntries[i];
      calls := calls + [DrawGeometry(entry.geometry, pen, entry.transform)];
    }
  }

  // ---------------------------------------------------------------------
  // Lemmas
  // ---------------------------------------------------------------------

  /** Reading a blank unit or a high surrogate adds no code point. */
  lemma DecodeAppendSkipped(cs: seq<CodeUnit>, c: CodeUnit)
    requires IsBlank(c) || IsHighSurrogate(c)
    ensures DecodeCodePoints(cs + [c]) == DecodeCodePoints(cs)
  {
    assert (cs + [c])[..|cs|] == cs;
  }

  /** Reading a low surrogate pairs it with the buffered high surrogate,
      and fails when nothing is buffered. */
  lemma DecodeAppendLow(cs: seq<CodeUnit>, c: CodeUnit)
    requires IsLowSurrogate(c)
    requires DecodeCodePoints(cs).Success?
    ensures LastHighSurrogate(cs) == Nul ==>
      DecodeCodePoints(cs + [c]).Failure? && DecodeCodePoints(cs + [c]).error == LoneLowSurrogate(|cs|)
    ensures LastHighSurrogate(cs) != Nul ==>
      && DecodeCodePoints(cs + [c]).Success?
      && DecodeCodePoints(cs + [c]).value == DecodeCodePoints(cs).value + [CombinePair(LastHighSurrogate(cs), c)]
  {
    var s := cs + [c];
    assert s[..|s| - 1] == cs;
    assert s[|s| - 1] == c;
    assert !IsBlank(c) && !IsHighSurrogate(c) by {
      BlankIsNotSurrogate(c);
    }
  }

  /** Reading any other unit adds that unit as a code point. */
  lemma DecodeAppendPlain(cs: seq<CodeUnit>, c: CodeUnit)
    requires !IsBlank(c) && !IsSurrogate(c)
    requires DecodeCodePoints(cs).Success?
    ensures DecodeCodePoints(cs + [c]).Success?
    ensures DecodeCodePoints(cs + [c]).value == DecodeCodePoints(cs).value + [c as CodePoint]
  {
    assert (cs + [c])[..|cs|] == cs;
  }

  /** Reading the two units that encode a supplementary code point adds
      exactly that code point. */
  lemma DecodeAppendPair(cs: seq<CodeUnit>, cp: CodePoint)
    requires IsSupplementary(cp)
    requires DecodeCodePoints(cs).Success?
    ensures DecodeCodePoints(cs + [HighSurrogateOf(cp), LowSurrogateOf(cp)]).Success?
    ensures DecodeCodePoints(cs + [HighSurrogateOf(cp), LowSurrogateOf(cp)]).value == DecodeCodePoints(cs).value + [cp]
  {
    var hi := HighSurrogateOf(cp);
    var lo := LowSurrogateOf(cp);
    var withHi := cs + [hi];
    assert DecodeCodePoints(withHi) == DecodeCodePoints(cs) by {
      DecodeAppendSkipped(cs, hi);
    }
    assert LastHighSurrogate(withHi) == hi by {
      LastHighAppend(cs, hi);
    }
    assert CombinePair(hi, lo) == cp by {
      CombineSplit(cp);
    }
    DecodeAppendLow(withHi, lo);
    assert cs + [hi, lo] == withHi + [lo];
  }

  /** Reading the encoding of one drawable code point adds exactly that
      code point. */
  lemma DecodeAppendCodePoint(cs: seq<CodeUnit>, cp: CodePoint)
    requires IsDrawable(cp)
    requires DecodeCodePoints(cs).Success?
    ensures DecodeCodePoints(cs + Encode(cp)).Success?
    ensures DecodeCodePoints(cs + Encode(cp)).value == DecodeCodePoints(cs).value + [cp]
  {
    if cp < 0x1_0000 {
      DecodeAppendPlain(cs, cp as CodeUnit);
    } else {
      DecodeAppendPair(cs, cp);
    }
  }

  /** Reading one more unit: a high surrogate replaces the buffer, any
      other unit leaves it alone. */
  lemma LastHighAppend(cs: seq<CodeUnit>, c: CodeUnit)
    ensures LastHighSurrogate(cs + [c]) == if IsHighSurrogate(c) then c else LastHighSurrogate(cs)
  {
    assert (cs + [c])[..|cs|] == cs;
  }

  /** Looking up one more code point. */
  lemma LookupAppend(font: FontFamily, cps: seq<CodePoint>, cp: CodePoint)
    ensures LookupGlyphs(font, cps + [cp]) ==
      if cp in font.glyphs then LookupGlyphs(font, cps) + [font.glyphs[cp]] else LookupGlyphs(font, cps)
  {
    assert (cps + [cp])[..|cps|] == cps;
  }

  /** Appending a glyph places it after the advance of all earlier ones and
      leaves the earlier entries untouched. */
  lemma LayoutAppend(gs: seq<Glyph>, g: Glyph)
    ensures Layout(gs + [g]) == Layout(gs) + [PlaceGlyph(g, SumAdvance(gs))]
  {
    assert (gs + [g])[..|gs|] == gs;
  }

  /** A lone low surrogate at index i stops the whole build with an error
      naming that index. */
  lemma LoneLowSurrogateFails(font: FontFamily, cs: seq<CodeUnit>, i: nat)
    requires i < |cs| && IsLowSurrogate(cs[i])
    requires DecodeCodePoints(cs[..i]).Success?
    requires LastHighSurrogate(cs[..i]) == Nul
    ensures ExpectedEntries(font, cs).Failure?
    ensures ExpectedEntries(font, cs).error == LoneLowSurrogate(i)
    ensures HasLoneLowSurrogate(cs)
  {
    assert cs[..i + 1] == cs[..i] + [cs[i]];
    DecodeAppendLow(cs[..i], cs[i]);
    DecodeFailureIsFinal(cs, i + 1);
    DecodeFailsIffLoneLow(cs);
  }

  /** Once a prefix fails to decode, the whole sequence fails with the same
      error: the assertion stops the builder at the first lone low
      surrogate. */
  lemma {:induction false} DecodeFailureIsFinal(cs: seq<CodeUnit>, n: nat)
    requires n <= |cs|
    requires DecodeCodePoints(cs[..n]).Failure?
    ensures DecodeCodePoints(cs) == DecodeCodePoints(cs[..n])
    decreases |cs| - n
  {
    if n < |cs| {
      var m := |cs| - 1;
      assert cs[..m][..n] == cs[..n];
      DecodeFailureIsFinal(cs[..m], n);
    } else {
      assert cs[..n] == cs;
    }
  }

  /** Decoding fails exactly when some low surrogate has no high surrogate
      anywhere before it. */
  lemma {:induction false} DecodeFailsIffLoneLow(cs: seq<CodeUnit>)
    ensures DecodeCodePoints(cs).Failure? <==> HasLoneLowSurrogate(cs)
    decreases |cs|
  {
    if |cs| > 0 {
      var init := cs[..|cs| - 1];
      var last := cs[|cs| - 1];
      DecodeFailsIffLoneLow(init);
      assert cs[..|cs| - 1] == init;
      if HasLoneLowSurrogate(init) {
        var i :| 0 <= i < |init| && IsLowSurrogate(init[i]) && NoHighSurrogate(init[..i]);
        assert cs[..i] == init[..i];
      }
      if HasLoneLowSurrogate(cs) {
        var i :| 0 <= i < |cs| && IsLowSurrogate(cs[i]) && NoHighSurrogate(cs[..i]);
        if i < |init| {
          assert cs[..i] == init[..i];
        }
      }
    }
  }

  /** Every unit that is neither blank nor a high surrogate yields exactly
      one code point; the others yield none. */
  lemma {:induction false} DecodeLength(cs: seq<CodeUnit>)
    requires DecodeCodePoints(cs).Success?
    ensures |DecodeCodePoints(cs).value| == EmittingCount(cs)
    decreases |cs|
  {
    if |cs| > 0 {
      DecodeLength(cs[..|cs| - 1]);
    }
  }

  /** The count of emitting units equals the length only when every unit
      emits. */
  lemma {:induction false} EmittingCountFull(cs: seq<CodeUnit>)
    ensures EmittingCount(cs) == |cs| <==> forall i :: 0 <= i < |cs| ==> Emits(cs[i])
    decreases |cs|
  {
    if |cs| > 0 {
      var init := cs[..|cs| - 1];
      EmittingCountFull(init);
      assert forall i :: 0 <= i < |init| ==> init[i] == cs[i];
    }
  }

  /** Text with no surrogates and no blanks decodes to its own units. */
  lemma {:induction false} DecodePlainText(cs: seq<CodeUnit>)
    requires forall i :: 0 <= i < |cs| ==> !IsSurrogate(cs[i]) && !IsBlank(cs[i])
    ensures DecodeCodePoints(cs).Success?
    ensures DecodeCodePoints(cs).value == seq(|cs|, i requires 0 <= i < |cs| => cs[i] as CodePoint)
    decreases |cs|
  {
    if |cs| > 0 {
      var init := cs[..|cs| - 1];
      DecodePlainText(init);
      var whole := seq(|cs|, i requires 0 <= i < |cs| => cs[i] as CodePoint);
      var front := seq(|init|, i requires 0 <= i < |init| => init[i] as CodePoint);
      assert whole == front + [cs[|cs| - 1] as CodePoint];
      assert DecodeCodePoints(cs).value == front + [cs[|cs| - 1] as CodePoint];
    }
  }

  /** Decoding the UTF-16 encoding of drawable code points gives them back:
      every surrogate pair becomes the one code point it encodes. */
  lemma {:induction false} DecodeEncodeRoundTrip(cps: seq<CodePoint>)
    requires AllDrawable(cps)
    ensures DecodeCodePoints(EncodeAll(cps)).Success?
    ensures DecodeCodePoints(EncodeAll(cps)).value == cps
    decreases |cps|
  {
    if |cps| > 0 {
      DecodeEncodeRoundTrip(cps[..|cps| - 1]);
      RoundTripStep(cps);
    }
  }

  /** One inductive step of the round trip: if the encoding of all but the
      last code point decodes correctly, so does the encoding of all. */
  lemma RoundTripStep(cps: seq<CodePoint>)
    requires |cps| > 0 && AllDrawable(cps)
    requires DecodeCodePoints(EncodeAll(cps[..|cps| - 1])).Success?
    requires DecodeCodePoints(EncodeAll(cps[..|cps| - 1])).value == cps[..|cps| - 1]
    ensures DecodeCodePoints(EncodeAll(cps)).Success?
    ensures DecodeCodePoints(EncodeAll(cps)).value == cps
  {
    var init := cps[..|cps| - 1];
    var cp := cps[|cps| - 1];
    var us := EncodeAll(init);
    assert EncodeAll(cps) == us + Encode(cp);
    assert DecodeCodePoints(us + Encode(cp)).Success? && DecodeCodePoints(us + Encode(cp)).value == init + [cp] by {
      DecodeAppendCodePoint(us, cp);
    }
    SplitLast(cps);
  }

  /** The builder's step for a code point: with a glyph, one more entry,
      placed at the running advance, which grows by the glyph's advance
      width; without, nothing changes. */
  lemma EmitStep(font: FontFamily, codes: seq<CodePoint>, code: CodePoint)
    ensures code !in font.glyphs ==> LookupGlyphs(font, codes + [code]) == LookupGlyphs(font, codes)
    ensures code in font.glyphs ==>
      var glyphs := LookupGlyphs(font, codes);
      var g := font.glyphs[code];
      && LookupGlyphs(font, codes + [code]) == glyphs + [g]
      && Layout(glyphs + [g]) == Layout(glyphs) + [PlaceGlyph(g, SumAdvance(glyphs))]
      && SumAdvance(glyphs + [g]) == SumAdvance(glyphs) + g.glyphMetrics.advanceWidth
  {
    LookupAppend(font, codes, code);
    if code in font.glyphs {
      var glyphs := LookupGlyphs(font, codes);
      LayoutAppend(glyphs, font.glyphs[code]);
      SumAdvanceAppend(glyphs, font.glyphs[code]);
    }
  }

  lemma SumAdvanceAppend(gs: seq<Glyph>, g: Glyph)
    ensures SumAdvance(gs + [g]) == SumAdvance(gs) + g.glyphMetrics.advanceWidth
  {
    assert (gs + [g])[..|gs|] == gs;
  }

  /** The loop state the reference pipeline predicts after reading `cs`:
      the entries and advance of the glyphs found so far, and the last
      high surrogate read. */
  function PipelineState(font: FontFamily, cs: seq<CodeUnit>): BuildState
    requires DecodeCodePoints(cs).Success?
  {
    var gs := LookupGlyphs(font, DecodeCodePoints(cs).value);
    BuildState(Layout(gs), SumAdvance(gs), LastHighSurrogate(cs))
  }

  /** One more iteration of the loop. */
  lemma FeedAppend(font: FontFamily, cs: seq<CodeUnit>, c: CodeUnit)
    ensures FeedAll(font, cs).Failure? ==> FeedAll(font, cs + [c]) == FeedAll(font, cs)
    ensures FeedAll(font, cs).Success? ==>
      FeedAll(font, cs + [c]) == FeedUnit(font, FeedAll(font, cs).value, c, |cs|)
  {
    assert (cs + [c])[..|cs|] == cs;
  }

  /** The loop's step from `cs[..i]` to `cs[..i + 1]`. */
  lemma FeedStep(font: FontFamily, cs: seq<CodeUnit>, i: nat)
    requires i < |cs| && FeedAll(font, cs[..i]).Success?
    ensures FeedAll(font, cs[..i + 1]) == FeedUnit(font, FeedAll(font, cs[..i]).value, cs[i], i)
  {
    PrefixStep(cs, i);
    FeedAppend(font, cs[..i], cs[i]);
  }

  /** Once the loop has failed, reading more units does not change the
      outcome. */
  lemma {:induction false} FeedFailureIsFinal(font: FontFamily, cs: seq<CodeUnit>, n: nat)
    requires n <= |cs|
    requires FeedAll(font, cs[..n]).Failure?
    ensures FeedAll(font, cs) == FeedAll(font, cs[..n])
    decreases |cs| - n
  {
    if n < |cs| {
      FeedStepAfterFailure(font, cs, n);
      FeedFailureIsFinal(font, cs, n + 1);
    } else {
      FullPrefix(cs);
    }
  }

  lemma FeedStepAfterFailure(font: FontFamily, cs: seq<CodeUnit>, n: nat)
    requires n < |cs| && FeedAll(font, cs[..n]).Failure?
    ensures FeedAll(font, cs[..n + 1]) == FeedAll(font, cs[..n])
  {
    PrefixStep(cs, n);
    FeedAppend(font, cs[..n], cs[n]);
  }

  /** The inductive step of `FeedIsPipeline` for a unit that is skipped. */
  lemma PipelineSkip(font: FontFamily, cs: seq<CodeUnit>, c: CodeUnit)
    requires IsBlank(c) || IsHighSurrogate(c)
    requires DecodeCodePoints(cs).Success?
    requires FeedAll(font, cs).Success? && FeedAll(font, cs).value == PipelineState(font, cs)
    ensures DecodeCodePoints(cs + [c]).Success?
    ensures FeedAll(font, cs + [c]).Success? && FeedAll(font, cs + [c]).value == PipelineState(font, cs + [c])
  {
    FeedAppend(font, cs, c);
    DecodeAppendSkipped(cs, c);
    LastHighAppend(cs, c);
    BlankIsNotSurrogate(c);
    var st := FeedAll(font, cs).value;
    var hi := LastHighSurrogate(cs + [c]);
    assert FeedUnit(font, st, c, |cs|).Success? && FeedUnit(font, st, c, |cs|).value == st.(highSurrogate := hi);
    assert PipelineState(font, cs + [c]) == PipelineState(font, cs).(highSurrogate := hi);
  }

  /** The inductive step of `FeedIsPipeline` for a low surrogate with
      nothing buffered. */
  lemma PipelineLoneLow(font: FontFamily, cs: seq<CodeUnit>, c: CodeUnit)
    requires IsLowSurrogate(c) && LastHighSurrogate(cs) == Nul
    requires DecodeCodePoints(cs).Success?
    requires FeedAll(font, cs).Success? && FeedAll(font, cs).value == PipelineState(font, cs)
    ensures DecodeCodePoints(cs + [c]).Failure? && FeedAll(font, cs + [c]).Failure?
    ensures FeedAll(font, cs + [c]).error == DecodeCodePoints(cs + [c]).error
  {
    FeedAppend(font, cs, c);
    DecodeAppendLow(cs, c);
    BlankIsNotSurrogate(c);
  }

  /** The inductive step of `FeedIsPipeline` for a unit that yields the
      code point `code`. */
  lemma PipelineEmit(font: FontFamily, cs: seq<CodeUnit>, c: CodeUnit, code: CodePoint)
    requires !IsBlank(c) && !IsHighSurrogate(c)
    requires IsLowSurrogate(c) ==> LastHighSurrogate(cs) != Nul && code == CombinePair(LastHighSurrogate(cs), c)
    requires !IsLowSurrogate(c) ==> code == c as CodePoint
    requires DecodeCodePoints(cs).Success?
    requires DecodeCodePoints(cs + [c]).Success?
    requires DecodeCodePoints(cs + [c]).value == DecodeCodePoints(cs).value + [code]
    requires LastHighSurrogate(cs + [c]) == LastHighSurrogate(cs)
    requires FeedAll(font, cs).Success? && FeedAll(font, cs).value == PipelineState(font, cs)
    ensures FeedAll(font, cs + [c]).Success? && FeedAll(font, cs + [c]).value == PipelineState(font, cs + [c])
  {
    FeedAppend(font, cs, c);
    var st := FeedAll(font, cs).value;
    FeedUnitEmits(font, st, c, |cs|, code);
    EmitStep(font, DecodeCodePoints(cs).value, code);
  }

  /** One iteration over a blank unit or a high surrogate adds no entry
      and leaves the advance alone; a high surrogate replaces whatever was
      buffered, used or not. */
  lemma FeedUnitSkips(font: FontFamily, st: BuildState, c: CodeUnit, index: nat)
    requires BufferOk(st) && (IsBlank(c) || IsHighSurrogate(c))
    ensures FeedUnit(font, st, c, index).Success?
    ensures FeedUnit(font, st, c, index).value.entries == st.entries
    ensures FeedUnit(font, st, c, index).value.advance == st.advance
    ensures FeedUnit(font, st, c, index).value.highSurrogate == if IsHighSurrogate(c) then c else st.highSurrogate
  {
    BlankIsNotSurrogate(c);
  }

  /** One iteration over a unit that yields `code`: an entry at the
      running advance when the font has the glyph, no change otherwise. */
  lemma FeedUnitEmits(font: FontFamily, st: BuildState, c: CodeUnit, index: nat, code: CodePoint)
    requires BufferOk(st) && !IsBlank(c) && !IsHighSurrogate(c)
    requires IsLowSurrogate(c) ==> st.highSurrogate != Nul && code == CombinePair(st.highSurrogate, c)
    requires !IsLowSurrogate(c) ==> code == c as CodePoint
    ensures FeedUnit(font, st, c, index).Success?
    ensures code !in font.glyphs ==> FeedUnit(font, st, c, index).value == st
    ensures code in font.glyphs ==>
      FeedUnit(font, st, c, index).value
        == st.(entries := st.entries + [PlaceGlyph(font.glyphs[code], st.advance)],
               advance := st.advance + font.glyphs[code].glyphMetrics.advanceWidth)
  {
  }

  /** The loop computes what the pipeline describes: it fails exactly when
      decoding fails, with the same error, and otherwise its locals are the
      pipeline's entries, advance and buffered high surrogate. */
  lemma {:induction false} FeedIsPipeline(font: FontFamily, cs: seq<CodeUnit>)
    ensures FeedAll(font, cs).Success? <==> DecodeCodePoints(cs).Success?
    ensures FeedAll(font, cs).Failure? ==> FeedAll(font, cs).error == DecodeCodePoints(cs).error
    ensures FeedAll(font, cs).Success? ==> FeedAll(font, cs).value == PipelineState(font, cs)
    decreases |cs|
  {
    if |cs| > 0 {
      var init := cs[..|cs| - 1];
      var c := cs[|cs| - 1];
      FeedIsPipeline(font, init);
      SplitLast(cs);
      if DecodeCodePoints(init).Failure? {
        FeedAppend(font, init, c);
        assert DecodeCodePoints(init + [c]) == DecodeCodePoints(init);
      } else if IsBlank(c) || IsHighSurrogate(c) {
        PipelineSkip(font, init, c);
      } else if IsLowSurrogate(c) {
        if LastHighSurrogate(init) == Nul {
          PipelineLoneLow(font, init, c);
        } else {
          DecodeAppendLow(init, c);
          LastHighAppend(init, c);
          PipelineEmit(font, init, c, CombinePair(LastHighSurrogate(init), c));
        }
      } else {
        DecodeAppendPlain(init, c);
        LastHighAppend(init, c);
        PipelineEmit(font, init, c, c as CodePoint);
      }
    }
  }

  /** The builder's failure exit: a lone low surrogate at `i` fails the
      whole build with the error naming `i`. */
  lemma BuilderFailure(font: FontFamily, cs: seq<CodeUnit>, i: nat)
    requires i < |cs|
    requires FeedAll(font, cs[..i + 1]).Failure? && FeedAll(font, cs[..i + 1]).error == LoneLowSurrogate(i)
    ensures ExpectedEntries(font, cs).Failure? && ExpectedEntries(font, cs).error == LoneLowSurrogate(i)
    ensures HasLoneLowSurrogate(cs)
  {
    FeedFailureIsFinal(font, cs, i + 1);
    FeedIsPipeline(font, cs);
    DecodeFailsIffLoneLow(cs);
  }

  /** The builder's normal exit: the loop's entries are the pipeline's. */
  lemma BuilderSuccess(font: FontFamily, cs: seq<CodeUnit>)
    requires FeedAll(font, cs[..|cs|]).Success?
    ensures ExpectedEntries(font, cs).Success?
    ensures ExpectedEntries(font, cs).value == FeedAll(font, cs[..|cs|]).value.entries
    ensures !HasLoneLowSurrogate(cs)
    ensures |ExpectedEntries(font, cs).value| <= |cs|
  {
    FullPrefix(cs);
    FeedIsPipeline(font, cs);
    DecodeFailsIffLoneLow(cs);
  }

  lemma PrefixStep<T>(s: seq<T>, i: nat)
    requires i < |s|
    ensures s[..i + 1] == s[..i] + [s[i]]
  {
  }

  lemma FullPrefix<T>(s: seq<T>)
    ensures s[..|s|] == s
  {
  }

  lemma SplitLast<T>(s: seq<T>)
    requires |s| > 0
    ensures s[..|s| - 1] + [s[|s| - 1]] == s
  {
  }

  /** A high surrogate that no low surrogate follows yields nothing, and
      a later high surrogate replaces it in the buffer. */
  lemma OverwrittenHighSurrogateIsDropped(h1: CodeUnit, h2: CodeUnit, lo: CodeUnit)
    requires IsHighSurrogate(h1) && IsHighSurrogate(h2) && IsLowSurrogate(lo)
    ensures DecodeCodePoints([h1, h2, lo]).Success?
    ensures DecodeCodePoints([h1, h2, lo]).value == [CombinePair(h2, lo)]
  {
    assert [h1] == [] + [h1];
    assert [h1, h2] == [h1] + [h2];
    assert [h1, h2, lo] == [h1, h2] + [lo];
    DecodeAppendSkipped([], h1);
    DecodeAppendSkipped([h1], h2);
    LastHighAppend([], h1);
    LastHighAppend([h1], h2);
    DecodeAppendLow([h1, h2], lo);
    assert [] + [CombinePair(h2, lo)] == [CombinePair(h2, lo)];
  }

  /** The buffer is not cleared after a pair, so a second low surrogate
      pairs with the same, already used, high surrogate instead of failing
      the assertion. */
  lemma StaleHighSurrogateIsReused(hi: CodeUnit, lo1: CodeUnit, lo2: CodeUnit)
    requires IsHighSurrogate(hi) && IsLowSurrogate(lo1) && IsLowSurrogate(lo2)
    ensures DecodeCodePoints([hi, lo1, lo2]).Success?
    ensures DecodeCodePoints([hi, lo1, lo2]).value == [CombinePair(hi, lo1), CombinePair(hi, lo2)]
  {
    assert [hi] == [] + [hi];
    assert [hi, lo1] == [hi] + [lo1];
    assert [hi, lo1, lo2] == [hi, lo1] + [lo2];
    DecodeAppendSkipped([], hi);
    LastHighAppend([], hi);
    DecodeAppendLow([hi], lo1);
    LastHighAppend([hi], lo1);
    DecodeAppendLow([hi, lo1], lo2);
    assert [] + [CombinePair(hi, lo1)] == [CombinePair(hi, lo1)];
    assert [CombinePair(hi, lo1)] + [CombinePair(hi, lo2)] == [CombinePair(hi, lo1), CombinePair(hi, lo2)];
  }

  /** A glyph lookup keeps every code point the font covers and drops the
      others; the output is as long as the input exactly when the font
      covers every code point. */
  lemma {:induction false} LookupFullIffCovered(font: FontFamily, cps: seq<CodePoint>)
    ensures |LookupGlyphs(font, cps)| == |cps| <==> forall i :: 0 <= i < |cps| ==> cps[i] in font.glyphs
    decreases |cps|
  {
    if |cps| > 0 {
      var init := cps[..|cps| - 1];
      LookupFullIffCovered(font, init);
      assert forall i :: 0 <= i < |init| ==> init[i] == cps[i];
    }
  }

  /** With full coverage glyph i is the font's glyph for code point i. */
  lemma {:induction false} LookupCovered(font: FontFamily, cps: seq<CodePoint>)
    requires forall i :: 0 <= i < |cps| ==> cps[i] in font.glyphs
    ensures LookupGlyphs(font, cps) == seq(|cps|, i requires 0 <= i < |cps| => font.glyphs[cps[i]])
    decreases |cps|
  {
    if |cps| > 0 {
      LookupCovered(font, cps[..|cps| - 1]);
    }
  }

  /** Code points the font does not cover yield no glyph at all. */
  lemma {:induction false} LookupUncovered(font: FontFamily, cps: seq<CodePoint>)
    requires forall i :: 0 <= i < |cps| ==> cps[i] !in font.glyphs
    ensures LookupGlyphs(font, cps) == []
    decreases |cps|
  {
    if |cps| > 0 {
      LookupUncovered(font, cps[..|cps| - 1]);
    }
  }

  /** Entry k carries glyph k's geometry and is placed after the advance
      widths of glyphs 0 .. k-1. */
  lemma {:induction false} LayoutPlacement(gs: seq<Glyph>, k: nat)
    requires k < |gs|
    ensures Layout(gs)[k] == PlaceGlyph(gs[k], SumAdvance(gs[..k]))
    decreases |gs|
  {
    var init := gs[..|gs| - 1];
    if k < |init| {
      LayoutPlacement(init, k);
      assert init[..k] == gs[..k];
    }
  }

  /** The advance after all glyphs is the advance after the first k plus
      that of the rest, so placements are cumulative left to right. */
  lemma {:induction false} SumAdvanceSplit(gs: seq<Glyph>, k: nat)
    requires k <= |gs|
    ensures SumAdvance(gs) == SumAdvance(gs[..k]) + SumAdvance(gs[k..])
    decreases |gs|
  {
    if k < |gs| {
      var init := gs[..|gs| - 1];
      SumAdvanceSplit(init, k);
      assert init[..k] == gs[..k];
      assert init[k..] == gs[k..|gs| - 1];
      assert gs[k..][..|gs[k..]| - 1] == gs[k..|gs| - 1];
    } else {
      assert gs[..k] == gs;
    }
  }

  /** Each entry is placed exactly one advance width after the entry before
      it, counted from the earlier glyph's own bearing-free origin. */
  lemma ConsecutiveEntries(gs: seq<Glyph>, k: nat)
    requires 0 < k < |gs|
    ensures Layout(gs)[k].transform.translateX - gs[k].glyphMetrics.rightSideBearing
         == Layout(gs)[k - 1].transform.translateX - gs[k - 1].glyphMetrics.rightSideBearing
            + gs[k - 1].glyphMetrics.advanceWidth
  {
    LayoutPlacement(gs, k);
    LayoutPlacement(gs, k - 1);
    assert gs[..k][..k - 1] == gs[..k - 1];
  }

  /** The builder never produces more entries than there are units, and
      strictly fewer when some unit is blank or a high surrogate, or some
      code point has no glyph. */
  lemma EntriesBound(font: FontFamily, cs: seq<CodeUnit>)
    requires ExpectedEntries(font, cs).Success?
    ensures |ExpectedEntries(font, cs).value| <= EmittingCount(cs) <= |cs|
    ensures (exists i :: 0 <= i < |cs| && !Emits(cs[i])) ==> |ExpectedEntries(font, cs).value| < |cs|
    ensures |ExpectedEntries(font, cs).value| == |cs| ==>
      forall i :: 0 <= i < |cs| ==> Emits(cs[i])
    ensures (exists k :: 0 <= k < |DecodeCodePoints(cs).value| && DecodeCodePoints(cs).value[k] !in font.glyphs) ==>
      |ExpectedEntries(font, cs).value| < |cs|
  {
    DecodeLength(cs);
    EmittingCountFull(cs);
    LookupFullIffCovered(font, DecodeCodePoints(cs).value);
  }

  /** Text with no surrogates and no blanks, fully covered by the font,
      gets one entry per unit, carrying the geometry of that unit's glyph. */
  lemma PlainTextOneEntryPerUnit(font: FontFamily, cs: seq<CodeUnit>)
    requires forall i :: 0 <= i < |cs| ==> !IsSurrogate(cs[i]) && !IsBlank(cs[i])
    requires forall i :: 0 <= i < |cs| ==> cs[i] as CodePoint in font.glyphs
    ensures ExpectedEntries(font, cs).Success?
    ensures |ExpectedEntries(font, cs).value| == |cs|
    ensures forall k :: 0 <= k < |cs| ==>
      ExpectedEntries(font, cs).value[k].geometry == font.glyphs[cs[k] as CodePoint].geometry
  {
    DecodePlainText(cs);
    var cps := seq(|cs|, i requires 0 <= i < |cs| => cs[i] as CodePoint);
    LookupCovered(font, cps);
    forall k | 0 <= k < |cs|
      ensures ExpectedEntries(font, cs).value[k].geometry == font.glyphs[cs[k] as CodePoint].geometry
    {
      LayoutPlacement(LookupGlyphs(font, cps), k);
    }
  }

  /** "A B" decodes to the code points of 'A' and 'B': the space is
      skipped. */
  lemma SpacedPairDecodes(u: seq<CodeUnit>)
    requires u == [0x41, 0x20, 0x42]
    ensures DecodeCodePoints(u).Success?
    ensures DecodeCodePoints(u).value == [0x41, 0x42]
  {
    var v := u[..1];
    var w := u[..2];
    assert DecodeCodePoints(v).Success? && DecodeCodePoints(v).value == [0x41] by {
      assert v == [] + [0x41];
      DecodeAppendPlain([], 0x41);
    }
    assert DecodeCodePoints(w) == DecodeCodePoints(v) by {
      assert w == v + [0x20];
      DecodeAppendSkipped(v, 0x20);
    }
    assert DecodeCodePoints(u).Success? && DecodeCodePoints(u).value == [0x41] + [0x42] by {
      assert u == w + [0x42];
      DecodeAppendPlain(w, 0x42);
    }
  }

  /** The font of the worked example covers both code points of "A B". */
  lemma SpacedPairLookup(font: FontFamily, a: Glyph, b: Glyph)
    requires font.glyphs == map[0x41 := a, 0x42 := b]
    ensures LookupGlyphs(font, [0x41, 0x42]) == [a, b]
  {
    var p: seq<CodePoint> := [0x41, 0x42];
    var q := p[..1];
    assert q == [] + [0x41];
    assert p == q + [0x42];
    LookupAppend(font, [], 0x41);
    LookupAppend(font, q, 0x42);
  }

  /** 'B' is laid out after the advance of 'A'. */
  lemma SpacedPairLayout(a: Glyph, b: Glyph)
    requires a.glyphMetrics == GlyphMetrics(10, 1) && b.glyphMetrics == GlyphMetrics(12, 0)
    ensures Layout([a, b]) == [PlaceGlyph(a, 0), PlaceGlyph(b, 10)]
  {
    assert [a] == [] + [a];
    assert [a, b] == [a] + [b];
    LayoutAppend([], a);
    LayoutAppend([a], b);
    assert SumAdvance([a]) == 10 by {
      assert [a][..0] == [];
    }
  }

  /** The worked example: 'A' (advance 10, bearing 1) and 'B' (advance 12,
      bearing 0) in "A B" give two entries; the space is skipped and 'B' is
      placed at 10, not 11, since bearings are not accumulated. */
  lemma SpacedPairExample(font: FontFamily, a: Glyph, b: Glyph, u: seq<CodeUnit>)
    requires a.glyphMetrics == GlyphMetrics(10, 1) && b.glyphMetrics == GlyphMetrics(12, 0)
    requires font.glyphs == map[0x41 := a, 0x42 := b]
    requires u == [0x41, 0x20, 0x42]
    ensures ExpectedEntries(font, u).Success?
    ensures ExpectedEntries(font, u).value == [PlaceGlyph(a, 0), PlaceGlyph(b, 10)]
    ensures ExpectedEntries(font, u).value[1].transform.translateX == 10
  {
    SpacedPairDecodes(u);
    SpacedPairLookup(font, a, b);
    SpacedPairLayout(a, b);
  }
}

=== FILE: swap_chain.dfy ===
/** The presentation driver of `MPF.Core/Media/SwapChain.cs`: the per-tick
    layout sweep over the element tree, the per-frame render walk over the
    visual tree, and the weakly held callback from the native swap chain.

    `UIElement.Measure`, `Arrange`, `Render`, `Visual.RenderContent` and
    `LayoutManager.Update` are not part of this model: each walk returns
    the sequence of calls it makes to them, and the properties are stated
    about that trace. */
module SwapChains {
  import opened Wrappers

  datatype Point = Point(x: real, y: real)

  const PointZero := Point(0.0, 0.0)

  datatype Size = Size(width: real, height: real)

  datatype Rect = Rect(location: Point, size: Size)

  /** The three independently settable dirty bits of an element. */
  datatype UIElementFlags = UIElementFlags(measureDirty: bool, arrangeDirty: bool, renderDirty: bool)

  /** A node of the tree: the layout state of a `UIElement` together with
      the visibility and ordered children of the `Visual` it is. */
  datatype UIElement = UIElement(
    id: nat,
    uiFlags: UIElementFlags,
    desiredSize: Size,
    lastAvailableSize: Size,
    lastFinalRect: Option<Rect>,
    isVisualVisible: bool,
    visualChildren: seq<UIElement>)

  /** A call out of the driver, in the order it is made. */
  datatype Event =
    | LayoutUpdate                             // LayoutManager.Current.Update()
    | Measure(element: nat, availableSize: Size)
    | Arrange(element: nat, finalRect: Rect)
    | Render(element: nat)
    | DrawRaised                               // one subscriber of the Draw event
    | RenderContent(visual: nat)

  /** A swap chain: the native handle, the root content (null when there is
      none) and the number of subscribers to its `Draw` event. `rootVisual`
      is the root as last set; the handlers read `RootVisual` only after
      external code has run, so they take the root at that point as a
      parameter instead. */
  datatype SwapChain = SwapChain(handle: nat, rootVisual: Option<UIElement>, drawHandlers: nat)

  datatype SwapChainError = ArgumentNull(paramName: string)

  /** A registration the constructor makes with the outside world. */
  datatype HostCall = SetCallback(handle: nat) | SubscribeUpdate

  datatype Construction = Construction(created: Result<SwapChain, SwapChainError>, hostCalls: seq<HostCall>)

  /** The callback handed to the native swap chain. It holds the swap chain
      it was made for through a weak reference, which the collector may
      since have cleared. */
  datatype Callback = Callback(swapChain: SwapChain, collected: bool)

  // ---------------------------------------------------------------------
  // Construction
  // ---------------------------------------------------------------------

  /** The `SwapChain` constructor. A null handle throws before anything is
      registered; otherwise the callback is registered with the handle and
      the driver subscribes to the application's update tick. */
  function NewSwapChain(swapChain: Option<nat>): (c: Construction)
    ensures c.created.Failure? <==> swapChain.None?
    ensures c.created.Failure? ==> c.created.error == ArgumentNull("swapChain") && c.hostCalls == []
    ensures c.created.Success? ==>
      && c.created.value.handle == swapChain.value
      && c.created.value.rootVisual.None?
      && c.created.value.drawHandlers == 0
      && c.hostCalls == [SetCallback(swapChain.value), SubscribeUpdate]
  {
    match swapChain
    case None => Construction(Failure(ArgumentNull("swapChain")), [])
    case Some(h) => Construction(Success(SwapChain(h, None, 0)), [SetCallback(h), SubscribeUpdate])
  }

  // ---------------------------------------------------------------------
  // Layout sweep
  // ---------------------------------------------------------------------

  /** The rect an element is arranged into: its last final rect, or, before
      its first arrange, a rect at the origin of its desired size. */
  function GetArrangeRect(element: UIElement): (r: Rect)
    ensures element.lastFinalRect.Some? ==> r == element.lastFinalRect.value
    ensures element.lastFinalRect.None? ==> r.location == PointZero && r.size == element.desiredSize
  {
    match element.lastFinalRect
    case Some(rect) => rect
    case None => Rect(PointZero, element.desiredSize)
  }

  /** Whether an element's arrange phase runs: it is forced or arrange-dirty.
      From that point on, its whole subtree is forced. */
  predicate Arranges(element: UIElement, forceArrange: bool) {
    forceArrange || element.uiFlags.arrangeDirty
  }

  /** The position of a phase call among one element's calls. */
  function PhaseRank(ev: Event): nat {
    match ev
    case Measure(_, _) => 0
    case Arrange(_, _) => 1
    case _ => 2
  }

  /** The calls one visit makes on the element itself, decided from a
      single snapshot of its flags. */
  function NodePhases(element: UIElement, forceArrange: bool): (r: seq<Event>)
    ensures Measure(element.id, element.lastAvailableSize) in r
      <==> forceArrange || element.uiFlags.measureDirty
    ensures Arrange(element.id, GetArrangeRect(element)) in r <==> Arranges(element, forceArrange)
    ensures Render(element.id) in r
      <==> Arranges(element, forceArrange) || element.uiFlags.renderDirty
    ensures forall ev :: ev in r ==>
      ev == Measure(element.id, element.lastAvailableSize)
      || ev == Arrange(element.id, GetArrangeRect(element))
      || ev == Render(element.id)
    ensures forall i, j :: 0 <= i < j < |r| ==> PhaseRank(r[i]) < PhaseRank(r[j])
    ensures |r| <= 3
  {
    var flags := element.uiFlags;
    var measure := if forceArrange || flags.measureDirty then [Measure(element.id, element.lastAvailableSize)] else [];
    var forced := forceArrange || flags.arrangeDirty;
    var arrange := if forced then [Arrange(element.id, GetArrangeRect(element))] else [];
    var render := if forced || flags.renderDirty then [Render(element.id)] else [];
    measure + arrange + render
  }

  /** `OnUpdate(element, parent, forceArrange)`: a pre-order visit of the
      subtree; children see the force flag as it stands after their
      parent's arrange. The unused `parent` argument is dropped. Every call
      it makes is one of the full sweep's calls on a node of the subtree,
      with that node's own available size or arrange rect, and there are at
      most three per node. */
  function UpdateElement(element: UIElement, forceArrange: bool): (t: seq<Event>)
    ensures forall ev :: ev in t ==> ev in FullSweep(PreOrder(element))
    ensures |t| <= 3 * |PreOrder(element)|
    decreases element
  {
    FullSweepAppend([element], PreOrderAll(element.visualChildren));
    assert FullSweep([element]) == FullPhases(element);
    NodePhases(element, forceArrange)
      + UpdateChildren(element.visualChildren, Arranges(element, forceArrange))
  }

  /** The `foreach` over an element's children, in order. */
  function UpdateChildren(children: seq<UIElement>, forceArrange: bool): (t: seq<Event>)
    ensures forall ev :: ev in t ==> ev in FullSweep(PreOrderAll(children))
    ensures |t| <= 3 * |PreOrderAll(children)|
    decreases children
  {
    if |children| == 0 then []
    else
      FullSweepAppend(PreOrder(children[0]), PreOrderAll(children[1..]));
      UpdateElement(children[0], forceArrange) + UpdateChildren(children[1..], forceArrange)
  }

  /** `OnUpdate(sender, e)`: the global layout update first, then the sweep
      from the root, unforced, if there is a root. `RootVisual` and the
      flags are read only once the layout manager has returned, so the
      root is given as it stands at that point, `rootAfterLayout`. */
  function OnUpdate(rootAfterLayout: Option<UIElement>): (t: seq<Event>)
    ensures |t| >= 1 && t[0] == LayoutUpdate
    ensures LayoutUpdate !in t[1..]
    ensures rootAfterLayout.None? ==> t == [LayoutUpdate]
    ensures rootAfterLayout.Some? ==> t[1..] == UpdateElement(rootAfterLayout.value, false)
  {
    match rootAfterLayout
    case None => [LayoutUpdate]
    case Some(root) =>
      FullSweepHasNoLayoutUpdate(PreOrder(root));
      var t := [LayoutUpdate] + UpdateElement(root, false);
      assert t[1..] == UpdateElement(root, false);
      t
  }

  // ---------------------------------------------------------------------
  // Render walk
  // ---------------------------------------------------------------------

  /** `RenderContent(Visual)`: a visible visual renders itself, then its
      children in order; an invisible one is skipped with its subtree. */
  function RenderVisual(visual: UIElement): (t: seq<Event>)
    ensures t == RenderCalls(VisiblePreOrder(visual))
    decreases visual
  {
    if visual.isVisualVisible then
      RenderCallsAppend([visual], VisiblePreOrderAll(visual.visualChildren));
      [RenderContent(visual.id)] + RenderVisuals(visual.visualChildren)
    else []
  }

  function RenderVisuals(visuals: seq<UIElement>): (t: seq<Event>)
    ensures t == RenderCalls(VisiblePreOrderAll(visuals))
    decreases visuals
  {
    if |visuals| == 0 then []
    else
      RenderCallsAppend(VisiblePreOrder(visuals[0]), VisiblePreOrderAll(visuals[1..]));
      RenderVisual(visuals[0]) + RenderVisuals(visuals[1..])
  }

  /** `RenderContent()`: the walk from the root, if there is one. */
  function RenderRoot(root: Option<UIElement>): (t: seq<Event>)
    ensures root.None? ==> t == []
    ensures root.Some? ==> t == RenderCalls(VisiblePreOrder(root.value))
    ensures root.Some? ==> |t| <= |PreOrder(root.value)|
    ensures forall ev :: ev in t ==> ev.RenderContent?
  {
    match root
    case None => []
    case Some(v) =>
      RenderWalkBound(v);
      RenderWalkOnlyRenders(v);
      RenderVisual(v)
  }

  /** `OnDraw()`: every `Draw` subscriber is notified before any content is
      rendered. A subscriber may replace `RootVisual`, so the root is
      given as it stands once the last subscriber has returned,
      `rootAfterDraw`. */
  function OnDraw(s: SwapChain, rootAfterDraw: Option<UIElement>): (t: seq<Event>)
    ensures |t| >= s.drawHandlers
    ensures forall i :: 0 <= i < s.drawHandlers ==> t[i] == DrawRaised
    ensures t[s.drawHandlers..] == RenderRoot(rootAfterDraw)
    ensures DrawRaised !in t[s.drawHandlers..]
  {
    var raised := seq(s.drawHandlers, _ => DrawRaised);
    var t := raised + RenderRoot(rootAfterDraw);
    assert t[s.drawHandlers..] == RenderRoot(rootAfterDraw);
    t
  }

  /** The `Callback` constructor: a weak reference to `s`, not yet
      cleared. */
  function NewCallback(s: SwapChain): (cb: Callback)
    ensures GetTarget(cb) == Some(s)
  {
    Callback(s, false)
  }

  /** `Callback.GetTarget`: `TryGetTarget`, with null once the swap chain
      has been collected. */
  function GetTarget(cb: Callback): (r: Option<SwapChain>)
    ensures r.None? <==> cb.collected
    ensures r.Some? ==> r.value == cb.swapChain
  {
    if cb.collected then None else Some(cb.swapChain)
  }

  /** `Callback.OnDraw`: forwards to a live swap chain and does nothing once
      it has been collected. */
  function CallbackOnDraw(cb: Callback, rootAfterDraw: Option<UIElement>): (t: seq<Event>)
    ensures cb.collected ==> t == []
    ensures !cb.collected ==> t == OnDraw(cb.swapChain, rootAfterDraw)
  {
    match GetTarget(cb)
    case None => []
    case Some(s) => OnDraw(s, rootAfterDraw)
  }

  // ---------------------------------------------------------------------
  // Reference definitions
  // ---------------------------------------------------------------------

  /** The nodes of a subtree in pre-order. */
  function PreOrder(element: UIElement): (ns: seq<UIElement>)
    ensures |ns| >= 1 && ns[0] == element
    decreases element
  {
    [element] + PreOrderAll(element.visualChildren)
  }

  function PreOrderAll(elements: seq<UIElement>): seq<UIElement>
    decreases elements
  {
    if |elements| == 0 then []
    else PreOrder(elements[0]) + PreOrderAll(elements[1..])
  }

  /** The nodes of a subtree in pre-order, leaving out every invisible
      node together with everything below it: the nodes of the subtree
      that the render walk reaches. */
  function VisiblePreOrder(visual: UIElement): (ns: seq<UIElement>)
    ensures |ns| <= |PreOrder(visual)|
    decreases visual
  {
    if visual.isVisualVisible then [visual] + VisiblePreOrderAll(visual.visualChildren) else []
  }

  function VisiblePreOrderAll(visuals: seq<UIElement>): (ns: seq<UIElement>)
    ensures |ns| <= |PreOrderAll(visuals)|
    decreases visuals
  {
    if |visuals| == 0 then []
    else VisiblePreOrder(visuals[0]) + VisiblePreOrderAll(visuals[1..])
  }

  /** All three phases on one node. */
  function FullPhases(n: UIElement): seq<Event> {
    [Measure(n.id, n.lastAvailableSize), Arrange(n.id, GetArrangeRect(n)), Render(n.id)]
  }

  /** All three phases on each of `ns`, in order. */
  function FullSweep(ns: seq<UIElement>): (t: seq<Event>)
    ensures |t| == 3 * |ns|
  {
    if |ns| == 0 then [] else FullPhases(ns[0]) + FullSweep(ns[1..])
  }

  /** No dirty flag is set anywhere in the subtree. */
  predicate Clean(element: UIElement)
    decreases element
  {
    && !element.uiFlags.measureDirty
    && !element.uiFlags.arrangeDirty
    && !element.uiFlags.renderDirty
    && forall i :: 0 <= i < |element.visualChildren| ==> Clean(element.visualChildren[i])
  }

  /** Every node of the subtree is visible. */
  predicate AllVisible(visual: UIElement)
    decreases visual
  {
    visual.isVisualVisible
    && forall i :: 0 <= i < |visual.visualChildren| ==> AllVisible(visual.visualChildren[i])
  }

  /** One render call per node, in the given order. */
  function RenderCalls(ns: seq<UIElement>): (t: seq<Event>)
    ensures |t| == |ns|
  {
    if |ns| == 0 then [] else [RenderContent(ns[0].id)] + RenderCalls(ns[1..])
  }

  /** Two trees that agree on identity, visibility and shape, whatever
      their layout state. */
  predicate SameVisuals(a: UIElement, b: UIElement)
    decreases a
  {
    && a.id == b.id
    && a.isVisualVisible == b.isVisualVisible
    && |a.visualChildren| == |b.visualChildren|
    && forall i :: 0 <= i < |a.visualChildren| ==> SameVisuals(a.visualChildren[i], b.visualChildren[i])
  }

  /** `a` is a subsequence of `b`: `a` is `b` with some elements left out,
      the rest kept in order. */
  predicate IsSubseq<T(==)>(a: seq<T>, b: seq<T>)
    decreases |b|
  {
    |a| == 0 || (|b| > 0 && ((a[0] == b[0] && IsSubseq(a[1..], b[1..])) || IsSubseq(a, b[1..])))
  }

  /** In a trace, every arrange call is immediately followed by the render
      call on the same element. */
  predicate ArrangeThenRender(t: seq<Event>) {
    forall i :: 0 <= i < |t| && t[i].Arrange? ==> i + 1 < |t| && t[i + 1] == Render(t[i].element)
  }

  // ---------------------------------------------------------------------
  // Lemmas: layout sweep
  // ---------------------------------------------------------------------

  lemma {:induction false} FullSweepAppend(a: seq<UIElement>, b: seq<UIElement>)
    ensures FullSweep(a + b) == FullSweep(a) + FullSweep(b)
    decreases |a|
  {
    if |a| > 0 {
      FullSweepAppend(a[1..], b);
      assert (a + b)[0] == a[0];
      assert (a + b)[1..] == a[1..] + b;
      assert FullSweep(a + b) == FullPhases(a[0]) + FullSweep(a[1..] + b);
    } else {
      assert a + b == b;
    }
  }

  /** A forced visit runs measure, arrange and render on every node of the
      subtree, in pre-order. */
  lemma {:induction false} ForcedUpdateIsFull(element: UIElement)
    ensures UpdateElement(element, true) == FullSweep(PreOrder(element))
    decreases element
  {
    var children := element.visualChildren;
    assert UpdateElement(element, true) == NodePhases(element, true) + UpdateChildren(children, true);
    ForcedChildrenAreFull(children);
    assert NodePhases(element, true) == FullPhases(element);
    assert FullSweep(PreOrder(element)) == FullPhases(element) + FullSweep(PreOrderAll(children)) by {
      FullSweepAppend([element], PreOrderAll(children));
      assert FullSweep([element]) == FullPhases(element);
    }
  }

  lemma {:induction false} ForcedChildrenAreFull(children: seq<UIElement>)
    ensures UpdateChildren(children, true) == FullSweep(PreOrderAll(children))
    decreases children
  {
    if |children| > 0 {
      ForcedUpdateIsFull(children[0]);
      ForcedChildrenAreFull(children[1..]);
      FullSweepAppend(PreOrder(children[0]), PreOrderAll(children[1..]));
    }
  }

  /** Once an element is arranged, it is also rendered, and every
      descendant gets all three phases, whatever its own flags. */
  lemma ArrangeForcesSubtree(element: UIElement, forceArrange: bool)
    requires Arranges(element, forceArrange)
    ensures Arrange(element.id, GetArrangeRect(element)) in UpdateElement(element, forceArrange)
    ensures Render(element.id) in UpdateElement(element, forceArrange)
    ensures UpdateElement(element, forceArrange)
      == NodePhases(element, forceArrange) + FullSweep(PreOrderAll(element.visualChildren))
  {
    ForcedChildrenAreFull(element.visualChildren);
  }

  /** A sweep over a tree with no dirty flag makes no phase call at all, so
      a second sweep with nothing marked in between does no work. */
  lemma {:induction false} CleanTreeIsSilent(element: UIElement)
    requires Clean(element)
    ensures UpdateElement(element, false) == []
    decreases element
  {
    CleanChildrenAreSilent(element.visualChildren);
  }

  lemma {:induction false} CleanChildrenAreSilent(children: seq<UIElement>)
    requires forall i :: 0 <= i < |children| ==> Clean(children[i])
    ensures UpdateChildren(children, false) == []
    decreases children
  {
    if |children| > 0 {
      CleanTreeIsSilent(children[0]);
      CleanChildrenAreSilent(children[1..]);
    }
  }

  /** An unforced element with no flags makes no call of its own, yet all
      its children are still visited, in order. */
  lemma CleanNodeVisitsChildren(element: UIElement)
    requires !element.uiFlags.measureDirty && !element.uiFlags.arrangeDirty && !element.uiFlags.renderDirty
    ensures UpdateElement(element, false) == UpdateChildren(element.visualChildren, false)
  {
  }

  lemma {:induction false} FullSweepHasNoLayoutUpdate(ns: seq<UIElement>)
    ensures LayoutUpdate !in FullSweep(ns)
    decreases |ns|
  {
    if |ns| > 0 {
      FullSweepHasNoLayoutUpdate(ns[1..]);
    }
  }

  /** A sweep makes at most three calls per node of the subtree. */
  lemma UpdateLength(element: UIElement, forceArrange: bool)
    ensures |UpdateElement(element, forceArrange)| <= 3 * |PreOrder(element)|
    ensures forceArrange ==> |UpdateElement(element, forceArrange)| == 3 * |PreOrder(element)|
  {
    if forceArrange {
      ForcedUpdateIsFull(element);
    }
  }

  lemma {:induction false} SubseqLength<T>(a: seq<T>, b: seq<T>)
    requires IsSubseq(a, b)
    ensures |a| <= |b|
    decreases |b|
  {
    if |a| > 0 {
      if a[0] == b[0] && IsSubseq(a[1..], b[1..]) {
        SubseqLength(a[1..], b[1..]);
      } else {
        SubseqLength(a, b[1..]);
      }
    }
  }

  /** Subsequences of two sequences concatenate to a subsequence of their
      concatenation. */
  lemma {:induction false} SubseqAppend<T>(a1: seq<T>, b1: seq<T>, a2: seq<T>, b2: seq<T>)
    requires IsSubseq(a1, b1) && IsSubseq(a2, b2)
    ensures IsSubseq(a1 + a2, b1 + b2)
    decreases |b1|
  {
    if |b1| == 0 {
      assert a1 == [];
      assert a1 + a2 == a2 && b1 + b2 == b2;
    } else if |a1| > 0 && a1[0] == b1[0] && IsSubseq(a1[1..], b1[1..]) {
      SubseqAppend(a1[1..], b1[1..], a2, b2);
      assert (a1 + a2)[0] == b1[0] == (b1 + b2)[0];
      assert (a1 + a2)[1..] == a1[1..] + a2;
      assert (b1 + b2)[1..] == b1[1..] + b2;
    } else {
      assert IsSubseq(a1, b1[1..]);
      SubseqAppend(a1, b1[1..], a2, b2);
      assert (b1 + b2)[1..] == b1[1..] + b2;
      if |a1 + a2| > 0 {
        assert |b1 + b2| > 0;
      }
    }
  }

  /** An optional single call is a subsequence of that call. */
  lemma OptionalSubseq<T>(o: seq<T>, x: T)
    requires o == [] || o == [x]
    ensures IsSubseq(o, [x])
  {
    if o == [x] {
      assert o[1..] == [] && [x][1..] == [];
    }
  }

  /** One visit's own calls are the element's full phases with some left
      out, in phase order. */
  lemma NodePhasesSubseq(element: UIElement, forceArrange: bool)
    ensures IsSubseq(NodePhases(element, forceArrange), FullPhases(element))
  {
    var flags := element.uiFlags;
    var m := Measure(element.id, element.lastAvailableSize);
    var a := Arrange(element.id, GetArrangeRect(element));
    var r := Render(element.id);
    var measure := if forceArrange || flags.measureDirty then [m] else [];
    var forced := forceArrange || flags.arrangeDirty;
    var arrange := if forced then [a] else [];
    var render := if forced || flags.renderDirty then [r] else [];
    assert NodePhases(element, forceArrange) == measure + arrange + render;
    assert FullPhases(element) == [m] + [a] + [r];
    OptionalSubseq(measure, m);
    OptionalSubseq(arrange, a);
    OptionalSubseq(render, r);
    SubseqAppend(measure, [m], arrange, [a]);
    SubseqAppend(measure + arrange, [m] + [a], render, [r]);
  }

  /** An unforced or forced sweep is the full sweep of the subtree with
      some calls left out: the node blocks come in pre-order, and each
      node gets at most its own measure, arrange and render, in that
      order. */
  lemma {:induction false} UpdateIsSubsweep(element: UIElement, forceArrange: bool)
    ensures IsSubseq(UpdateElement(element, forceArrange), FullSweep(PreOrder(element)))
    decreases element
  {
    NodePhasesSubseq(element, forceArrange);
    ChildrenAreSubsweeps(element.visualChildren, Arranges(element, forceArrange));
    FullSweepAppend([element], PreOrderAll(element.visualChildren));
    assert FullSweep([element]) == FullPhases(element);
    SubseqAppend(NodePhases(element, forceArrange), FullPhases(element),
                 UpdateChildren(element.visualChildren, Arranges(element, forceArrange)),
                 FullSweep(PreOrderAll(element.visualChildren)));
  }

  lemma {:induction false} ChildrenAreSubsweeps(children: seq<UIElement>, forceArrange: bool)
    ensures IsSubseq(UpdateChildren(children, forceArrange), FullSweep(PreOrderAll(children)))
    decreases children
  {
    if |children| > 0 {
      UpdateIsSubsweep(children[0], forceArrange);
      ChildrenAreSubsweeps(children[1..], forceArrange);
      FullSweepAppend(PreOrder(children[0]), PreOrderAll(children[1..]));
      SubseqAppend(UpdateElement(children[0], forceArrange), FullSweep(PreOrder(children[0])),
                   UpdateChildren(children[1..], forceArrange), FullSweep(PreOrderAll(children[1..])));
    }
  }

  lemma ArrangeThenRenderAppend(a: seq<Event>, b: seq<Event>)
    requires ArrangeThenRender(a) && ArrangeThenRender(b)
    ensures ArrangeThenRender(a + b)
  {
    var t := a + b;
    forall i | 0 <= i < |t| && t[i].Arrange?
      ensures i + 1 < |t| && t[i + 1] == Render(t[i].element)
    {
      if i < |a| {
        assert a[i].Arrange?;
      } else {
        assert b[i - |a|].Arrange?;
      }
    }
  }

  /** In every sweep, an arrange call is immediately followed by the
      render call on the same element. */
  lemma {:induction false} UpdateArrangeThenRender(element: UIElement, forceArrange: bool)
    ensures ArrangeThenRender(UpdateElement(element, forceArrange))
    decreases element
  {
    ChildrenArrangeThenRender(element.visualChildren, Arranges(element, forceArrange));
    var own := NodePhases(element, forceArrange);
    forall i | 0 <= i < |own| && own[i].Arrange?
      ensures i + 1 < |own| && own[i + 1] == Render(own[i].element)
    {
      assert own[i] == Arrange(element.id, GetArrangeRect(element));
    }
    ArrangeThenRenderAppend(own, UpdateChildren(element.visualChildren, Arranges(element, forceArrange)));
  }

  lemma {:induction false} ChildrenArrangeThenRender(children: seq<UIElement>, forceArrange: bool)
    ensures ArrangeThenRender(UpdateChildren(children, forceArrange))
    decreases children
  {
    if |children| > 0 {
      UpdateArrangeThenRender(children[0], forceArrange);
      ChildrenArrangeThenRender(children[1..], forceArrange);
      ArrangeThenRenderAppend(UpdateElement(children[0], forceArrange), UpdateChildren(children[1..], forceArrange));
    }
  }

  /** A root with only its arrange flag set over a clean chain A, B: one
      sweep re-arranges A and B although their own flags are clear. */
  lemma ArrangePropagatesDownChain(root: UIElement, a: UIElement, b: UIElement)
    requires root.uiFlags == UIElementFlags(false, true, false)
    requires root.visualChildren == [a] && a.visualChildren == [b]
    ensures Arrange(a.id, GetArrangeRect(a)) in UpdateElement(root, false)
    ensures Arrange(b.id, GetArrangeRect(b)) in UpdateElement(root, false)
  {
    ArrangeForcesSubtree(root, false);
    assert PreOrderAll([a]) == PreOrder(a) by {
      assert [a][1..] == [];
    }
    assert PreOrderAll([b]) == PreOrder(b) by {
      assert [b][1..] == [];
    }
    FullSweepAppend([a], PreOrderAll([b]));
    FullSweepAppend([b], []);
  }

  /** With no root content once the external code has run, a tick only
      runs the global layout update and a frame only notifies the `Draw`
      subscribers. */
  lemma EmptySurfaceTick(s: SwapChain)
    ensures OnUpdate(None) == [LayoutUpdate]
    ensures forall ev :: ev in OnDraw(s, None) ==> ev == DrawRaised
  {
  }

  /** A tick over a tree that the layout manager has left with no dirty
      flags runs only the global update. */
  lemma CleanSurfaceTick(root: UIElement)
    requires Clean(root)
    ensures OnUpdate(Some(root)) == [LayoutUpdate]
  {
    CleanTreeIsSilent(root);
  }

  // ---------------------------------------------------------------------
  // Lemmas: render walk
  // ---------------------------------------------------------------------

  lemma {:induction false} RenderWalkBound(visual: UIElement)
    ensures |RenderVisual(visual)| <= |PreOrder(visual)|
    decreases visual
  {
    RenderChildrenBound(visual.visualChildren);
  }

  lemma {:induction false} RenderChildrenBound(visuals: seq<UIElement>)
    ensures |RenderVisuals(visuals)| <= |PreOrderAll(visuals)|
    decreases visuals
  {
    if |visuals| > 0 {
      RenderWalkBound(visuals[0]);
      RenderChildrenBound(visuals[1..]);
    }
  }

  lemma {:induction false} RenderWalkOnlyRenders(visual: UIElement)
    ensures forall ev :: ev in RenderVisual(visual) ==> ev.RenderContent?
    decreases visual
  {
    RenderChildrenOnlyRender(visual.visualChildren);
  }

  lemma {:induction false} RenderChildrenOnlyRender(visuals: seq<UIElement>)
    ensures forall ev :: ev in RenderVisuals(visuals) ==> ev.RenderContent?
    decreases visuals
  {
    if |visuals| > 0 {
      RenderWalkOnlyRenders(visuals[0]);
      RenderChildrenOnlyRender(visuals[1..]);
    }
  }

  lemma {:induction false} RenderCallsAppend(a: seq<UIElement>, b: seq<UIElement>)
    ensures RenderCalls(a + b) == RenderCalls(a) + RenderCalls(b)
    decreases |a|
  {
    if |a| > 0 {
      RenderCallsAppend(a[1..], b);
      assert (a + b)[0] == a[0];
      assert (a + b)[1..] == a[1..] + b;
      assert RenderCalls(a + b) == [RenderContent(a[0].id)] + RenderCalls(a[1..] + b);
    } else {
      assert a + b == b;
    }
  }

  /** When the whole tree is visible, every node is rendered once, parents
      before children, siblings in order: the walk is the pre-order. */
  lemma {:induction false} VisibleTreeRendersPreOrder(visual: UIElement)
    requires AllVisible(visual)
    ensures RenderVisual(visual) == RenderCalls(PreOrder(visual))
    decreases visual
  {
    VisibleChildrenRenderPreOrder(visual.visualChildren);
    RenderCallsAppend([visual], PreOrderAll(visual.visualChildren));
  }

  lemma {:induction false} VisibleChildrenRenderPreOrder(visuals: seq<UIElement>)
    requires forall i :: 0 <= i < |visuals| ==> AllVisible(visuals[i])
    ensures RenderVisuals(visuals) == RenderCalls(PreOrderAll(visuals))
    decreases visuals
  {
    if |visuals| > 0 {
      VisibleTreeRendersPreOrder(visuals[0]);
      VisibleChildrenRenderPreOrder(visuals[1..]);
      RenderCallsAppend(PreOrder(visuals[0]), PreOrderAll(visuals[1..]));
    }
  }

  /** Every node is rendered exactly when no node is hidden: any invisible
      node costs at least its own render call. */
  lemma {:induction false} RenderAllIffAllVisible(visual: UIElement)
    ensures |RenderVisual(visual)| == |PreOrder(visual)| <==> AllVisible(visual)
    decreases visual
  {
    RenderChildrenAllIffAllVisible(visual.visualChildren);
    RenderChildrenBound(visual.visualChildren);
  }

  lemma {:induction false} RenderChildrenAllIffAllVisible(visuals: seq<UIElement>)
    ensures |RenderVisuals(visuals)| == |PreOrderAll(visuals)|
      <==> forall i :: 0 <= i < |visuals| ==> AllVisible(visuals[i])
    decreases visuals
  {
    if |visuals| > 0 {
      RenderAllIffAllVisible(visuals[0]);
      RenderChildrenAllIffAllVisible(visuals[1..]);
      RenderWalkBound(visuals[0]);
      RenderChildrenBound(visuals[1..]);
      assert forall i :: 1 <= i < |visuals| ==> visuals[i] == visuals[1..][i - 1];
    }
  }

  lemma {:induction false} VisiblePreOrderAppend(a: seq<UIElement>, b: seq<UIElement>)
    ensures VisiblePreOrderAll(a + b) == VisiblePreOrderAll(a) + VisiblePreOrderAll(b)
    decreases |a|
  {
    if |a| > 0 {
      VisiblePreOrderAppend(a[1..], b);
      assert (a + b)[0] == a[0];
      assert (a + b)[1..] == a[1..] + b;
      assert VisiblePreOrderAll(a + b) == VisiblePreOrder(a[0]) + VisiblePreOrderAll(a[1..] + b);
    } else {
      assert a + b == b;
    }
  }

  /** The walk reaches only visible nodes of the subtree. */
  lemma {:induction false} VisibleNodesAreInTree(visual: UIElement)
    ensures forall n :: n in VisiblePreOrder(visual) ==> n.isVisualVisible && n in PreOrder(visual)
    decreases visual
  {
    VisibleChildrenAreInTrees(visual.visualChildren);
  }

  lemma {:induction false} VisibleChildrenAreInTrees(visuals: seq<UIElement>)
    ensures forall n :: n in VisiblePreOrderAll(visuals) ==> n.isVisualVisible && n in PreOrderAll(visuals)
    decreases visuals
  {
    if |visuals| > 0 {
      VisibleNodesAreInTree(visuals[0]);
      VisibleChildrenAreInTrees(visuals[1..]);
    }
  }

  lemma RenderVisualsAppend(a: seq<UIElement>, b: seq<UIElement>)
    ensures RenderVisuals(a + b) == RenderVisuals(a) + RenderVisuals(b)
  {
    VisiblePreOrderAppend(a, b);
    RenderCallsAppend(VisiblePreOrderAll(a), VisiblePreOrderAll(b));
  }

  /** A hidden child contributes nothing: the walk over the siblings is the
      walk with that child removed. */
  lemma HiddenChildIsPruned(before: seq<UIElement>, hidden: UIElement, after: seq<UIElement>)
    requires !hidden.isVisualVisible
    ensures RenderVisuals(before + [hidden] + after) == RenderVisuals(before + after)
  {
    assert RenderVisuals([hidden]) == [] by {
      assert [hidden][1..] == [];
      assert RenderVisual(hidden) == [];
    }
    RenderVisualsAppend(before, [hidden]);
    RenderVisualsAppend(before + [hidden], after);
    RenderVisualsAppend(before, after);
  }

  /** The render walk depends only on identity, visibility and shape, not
      on dirty flags or layout state. */
  lemma {:induction false} RenderIgnoresLayoutState(a: UIElement, b: UIElement)
    requires SameVisuals(a, b)
    ensures RenderVisual(a) == RenderVisual(b)
    decreases a
  {
    RenderChildrenIgnoreLayoutState(a.visualChildren, b.visualChildren);
  }

  lemma {:induction false} RenderChildrenIgnoreLayoutState(xs: seq<UIElement>, ys: seq<UIElement>)
    requires |xs| == |ys|
    requires forall i :: 0 <= i < |xs| ==> SameVisuals(xs[i], ys[i])
    ensures RenderVisuals(xs) == RenderVisuals(ys)
    decreases xs
  {
    if |xs| > 0 {
      RenderIgnoresLayoutState(xs[0], ys[0]);
      RenderChildrenIgnoreLayoutState(xs[1..], ys[1..]);
    }
  }

  /** Root, then an invisible X, then Y under X: only the root is
      rendered, and Y is never reached. */
  lemma HiddenSubtreeIsCulled(root: UIElement, x: UIElement, y: UIElement)
    requires root.isVisualVisible && !x.isVisualVisible
    requires root.visualChildren == [x] && x.visualChildren == [y]
    ensures RenderVisual(root) == [RenderContent(root.id)]
  {
    assert [x][1..] == [];
    assert RenderVisuals([x]) == RenderVisual(x) + RenderVisuals([]);
  }
}

=== FILE: utf16.dfy ===
/** UTF-16 code units as the toolkit's `char` sees them: the character
    classes the glyph-run builder tests (`char.IsControl`,
    `char.IsWhiteSpace`, `char.IsHighSurrogate`, `char.IsLowSurrogate`) and
    the surrogate-pair arithmetic of section 2.2 of RFC 2781
    (`char.ConvertToUtf32`). */
module Utf16 {

  /** One UTF-16 code unit (a .NET `char`). Dafny's own `char` excludes the
      surrogate range, so the unit is a 16-bit integer instead. */
  newtype CodeUnit = x: int | 0 <= x < 0x1_0000

  /** A Unicode code point, as the `uint` the builder passes to the font. */
  type CodePoint = nat

  /** The NUL unit, which the builder uses as "no high surrogate buffered". */
  const Nul: CodeUnit := 0

  const MaxCodePoint: CodePoint := 0x10_FFFF

  predicate IsHighSurrogate(c: CodeUnit) {
    0xD800 <= c <= 0xDBFF
  }

  predicate IsLowSurrogate(c: CodeUnit) {
    0xDC00 <= c <= 0xDFFF
  }

  predicate IsSurrogate(c: CodeUnit) {
    IsHighSurrogate(c) || IsLowSurrogate(c)
  }

  /** `char.IsControl`: the Unicode general category Cc. */
  predicate IsControl(c: CodeUnit) {
    c <= 0x1F || 0x7F <= c <= 0x9F
  }

  /** `char.IsWhiteSpace`: the categories Zs, Zl and Zp, plus the units
      U+0009 to U+000D and U+0085. The Zs set is that of Unicode 6.3 and
      later, which moved U+180E MONGOLIAN VOWEL SEPARATOR out of Zs; runtimes
      built on older Unicode data also count U+180E as white space. */
  predicate IsWhiteSpace(c: CodeUnit) {
    || 0x09 <= c <= 0x0D
    || c == 0x20
    || c == 0x85
    || c == 0xA0
    || c == 0x1680
    || 0x2000 <= c <= 0x200A
    || c == 0x2028
    || c == 0x2029
    || c == 0x202F
    || c == 0x205F
    || c == 0x3000
  }

  /** A unit the glyph-run builder skips outright. */
  predicate IsBlank(c: CodeUnit) {
    IsControl(c) || IsWhiteSpace(c)
  }

  /** Blank units and surrogates are disjoint classes, so the builder's
      blank test never swallows half of a surrogate pair. */
  lemma BlankIsNotSurrogate(c: CodeUnit)
    ensures IsBlank(c) ==> !IsSurrogate(c)
    ensures IsSurrogate(c) ==> c != Nul
  {
  }

  /** `char.ConvertToUtf32(hi, lo)` for a well-formed pair. */
  function CombinePair(hi: CodeUnit, lo: CodeUnit): (cp: CodePoint)
    requires IsHighSurrogate(hi) && IsLowSurrogate(lo)
    ensures 0x1_0000 <= cp <= MaxCodePoint
  {
    0x1_0000 + (hi as int - 0xD800) * 0x400 + (lo as int - 0xDC00)
  }

  /** A code point beyond the Basic Multilingual Plane. */
  predicate IsSupplementary(cp: CodePoint) {
    0x1_0000 <= cp <= MaxCodePoint
  }

  /** The leading unit of the encoding of a supplementary code point. */
  function HighSurrogateOf(cp: CodePoint): (hi: CodeUnit)
    requires IsSupplementary(cp)
    ensures IsHighSurrogate(hi)
  {
    (0xD800 + (cp - 0x1_0000) / 0x400) as CodeUnit
  }

  /** The trailing unit of the encoding of a supplementary code point. */
  function LowSurrogateOf(cp: CodePoint): (lo: CodeUnit)
    requires IsSupplementary(cp)
    ensures IsLowSurrogate(lo)
  {
    (0xDC00 + (cp - 0x1_0000) % 0x400) as CodeUnit
  }

  /** Splitting a supplementary code point and recombining the halves gives
      the code point back. */
  lemma CombineSplit(cp: CodePoint)
    requires IsSupplementary(cp)
    ensures CombinePair(HighSurrogateOf(cp), LowSurrogateOf(cp)) == cp
  {
  }

  /** Combining a pair and splitting the result gives the pair back, so
      `CombinePair` is injective: two different pairs never collide. */
  lemma SplitCombine(hi: CodeUnit, lo: CodeUnit)
    requires IsHighSurrogate(hi) && IsLowSurrogate(lo)
    ensures HighSurrogateOf(CombinePair(hi, lo)) == hi
    ensures LowSurrogateOf(CombinePair(hi, lo)) == lo
  {
  }

  /** A code point the builder renders as itself when encoded: a Unicode
      scalar value that is not blank. */
  predicate IsDrawable(cp: CodePoint) {
    if cp < 0x1_0000 then !IsSurrogate(cp as CodeUnit) && !IsBlank(cp as CodeUnit)
    else cp <= MaxCodePoint
  }

  /** The UTF-16 encoding of one drawable code point. */
  function Encode(cp: CodePoint): (units: seq<CodeUnit>)
    requires IsDrawable(cp)
    ensures 1 <= |units| <= 2
  {
    if cp < 0x1_0000 then [cp as CodeUnit]
    else [HighSurrogateOf(cp), LowSurrogateOf(cp)]
  }

  /** Every code point of `cps` is drawable. */
  predicate AllDrawable(cps: seq<CodePoint>) {
    forall i :: 0 <= i < |cps| ==> IsDrawable(cps[i])
  }

  /** The UTF-16 encoding of a sequence of drawable code points. */
  function EncodeAll(cps: seq<CodePoint>): (units: seq<CodeUnit>)
    requires AllDrawable(cps)
    ensures |cps| <= |units| <= 2 * |cps|
  {
    if |cps| == 0 then []
    else EncodeAll(cps[..|cps| - 1]) + Encode(cps[|cps| - 1])
  }
}

=== FILE: wrappers.dfy ===
/** Failure-compatible result types shared by the modules of this model:
    `Option` stands for a nullable reference, `Result` for an operation
    that either produces a value or raises an exception. */
module Wrappers {

  /** A nullable reference: `None` plays the part of `null`. */
  datatype Option<+T> = None | Some(value: T)

  /** The outcome of an operation that may throw. */
  datatype Result<+R, +E> = Success(value: R) | Failure(error: E) {

    predicate IsFailure() {
      Failure?
    }

    function PropagateFailure<U>(): Result<U, E>
      requires Failure?
    {
      Failure(error)
    }

    function Extract(): R
      requires Success?
    {
      value
    }
  }
}
